=== FILE: README.md ===
# Metalworking calculators — a Dafny model

This project models the computational core of a sheet-metal and pipe-fitting
calculator application: the shared material tables (`src/utils/constants.ts`)
and the twelve calculators under `src/features/*/logic.ts`. Each calculator
reads an untyped input record, checks it where the source guards its input, computes a handful of
dimensions, and returns a result made of display metrics, explanatory steps
and a `calculated` payload for the drawings. The calculators are:

- cylinder blank
- cone / frustum development
- square-to-round transition
- segmented elbow ("gomos")
- pipe offset
- pipe branching saddle ("boca de lobo")
- arc from chord and sagitta
- wall bracket ("mão francesa")
- bolt group capacity
- stairs
- plate weight
- volumes of simple solids

How the source's behaviour is represented:

- **Input records.** An input record is a `map<string, Field>`. The source's
  `Number(x) || d` reading (absent, zero or non-numeric means the default) is
  `Records.NumberOr`, and `String(x || d)` is `Records.StringOr`.
- **Results.** A result is a `Records.CalcResult`. It keeps:
  - the ordered metric labels;
  - the number of steps;
  - the `calculated` payload as a map of numbers, texts and point curves.
- **Numbers.** Arithmetic is on exact reals.
- **Transcendental functions.** `Math.sqrt`, `sin`, `cos`, `tan`, `asin` and
  `atan2` are the fields of a `Numerics.MathLib` parameter. A lemma that
  needs one of their laws takes that law as a precondition. The laws are:
  - `SqrtLaw`: the root of a non-negative number is non-negative and
    squares back;
  - `FirstQuadrantSineLaw`: the sine of `atan2` of two positive legs is
    positive;
  - `AsinRangeLaw`: `asin` of a value in [−1, 1] lies in [−π/2, π/2];
  - `CosAsinLaw`: the cosine of `asin x` is √(1 − x²) for x in [−1, 1];
  - `SupplementLaw`: angles adding up to π have opposite cosines.
- **π.** `Math.PI` is the double's value written as a decimal.

Every calculator module follows the same layout:

- `Read` turns the record into a `Dimensions` value, with the source's
  defaults.
- `Valid` is the source's guard.
- The named quantities are functions.
- `Evaluate` builds the result.
- `Calculate` is `Evaluate ∘ Read`, the source's exported function (in the
  volumes calculator, `Evaluate` of the measured solid).
- Lemmas relate the quantities to the geometry they stand for: Pythagoras
  for slant heights and diagonals, similar triangles for the cone's
  development, the invariants of the saddle normalisation, and the safety
  bands of the bracket and bolt checks.

## Model

| member | source | states |
|---|---|---|
| Constants.Density | src/utils/constants.ts:1-11 | the density of a listed material is its table entry; any other material gets the 7.85 fallback; every density is positive |
| Constants.DensitiesPositive | src/utils/constants.ts:1-11 | every material in the table has a positive density |
| Constants.SteelIsTheFallback | src/utils/constants.ts:2-3 | steel and galvanized both weigh 7.85, and an unknown material weighs as steel |
| Constants.SizesAscend | src/utils/constants.ts:14-24 | the nine metric sizes are exactly the table's keys; pitch and stress area strictly increase from M6 to M36 |
| Constants.SizesPositive | src/utils/constants.ts:14-24 | every size has a positive pitch and stress area |
| Constants.TensileAtLeastYield | src/utils/constants.ts:26-32 | in every property class the yield stress is positive and at most the tensile stress |
| Constants.ClassesAscend | src/utils/constants.ts:26-32 | the five classes are exactly the table's keys; yield stress strictly increases from 4.6 to 12.9 |
| Cylinder.Evaluate | src/features/cylinder/logic.ts:31-50 | any input (there is no guard) gives the seven metrics, five steps and a payload of exactly the blank's width and height |
| Cylinder.Calculate | src/features/cylinder/logic.ts:4 | the exported calculator: Evaluate of Read, so the blank's height is the record's height (0 when unset) |
| Cylinder.BlankWidth | src/features/cylinder/logic.ts:10-12 | the blank's width is the circumference at the mean diameter, π·(D + t) |
| Cylinder.DiameterLadder | src/features/cylinder/logic.ts:10-11 | the internal, mean and external diameters each step up by one wall thickness |
| Cylinder.WeightOfBlank | src/features/cylinder/logic.ts:16-17 | the weight is the blank's volume times the density; it is zero for a zero thickness and linear in the density |
| Cylinder.CapacityIgnoresWall | src/features/cylinder/logic.ts:20-22 | the capacity is πr²h at the internal radius and does not depend on the wall thickness |
| Cylinder.ExternalSurface | src/features/cylinder/logic.ts:25-29 | the surface is the side plus both ends, taken at the external radius |
| Cylinder.EmptyRecord | src/features/cylinder/logic.ts:5-8 | an empty record reads as all zeros and gives a zero-width blank |
| Cone.Evaluate | src/features/cone/logic.ts:22-64 | always seven metrics and five steps; the payload is exactly the development's two radii and angle — R_dev = R·g/(R − r), r_dev = R_dev − g and theta = 360·R/R_dev — all zero for a degenerate cone |
| Cone.Calculate | src/features/cone/logic.ts:4 | the exported calculator: Evaluate of Read; a record giving neither diameter develops a zero sector angle |
| Cone.GeneratrixIsSlant | src/features/cone/logic.ts:15 | the generatrix is the non-negative hypotenuse over the height and the difference of the radii |
| Cone.SimilarTriangles | src/features/cone/logic.ts:26-27 | the development's radii differ by the generatrix and stand in the ratio of the cone's two radii |
| Cone.SweepAngle | src/features/cone/logic.ts:28 | the sector angle times the outer development radius is 360·R, so the sector's arc is the base circumference |
| Cone.LateralSurface | src/features/cone/logic.ts:33-35 | the lateral area is π(R + r)·g, and the weight is that area times thickness and density |
| Cone.FrustumVolume | src/features/cone/logic.ts:39 | the capacity is the frustum's πh(R² + r² + Rr)/3; with equal ends it is the cylinder's πR²h |
| Cone.EmptyRecord | src/features/cone/logic.ts:5-9 | an empty record reads as all zeros and is a degenerate cone |
| SquareToRound.Evaluate | src/features/square-to-round/logic.ts:31-55 | always six metrics and six steps; the payload is exactly the side, the diameter and the height |
| SquareToRound.Calculate | src/features/square-to-round/logic.ts:4 | the exported calculator: Evaluate of Read; the drawing gets the record's side (0 when unset) |
| SquareToRound.Slant | src/features/square-to-round/logic.ts:23-24 | the slant height is the non-negative hypotenuse over the height and half the difference of side and diameter |
| SquareToRound.VerticalSides | src/features/square-to-round/logic.ts:23-24 | when the side equals the diameter the slant height is the height |
| SquareToRound.PyramidLimit | src/features/square-to-round/logic.ts:13-16 | with no round top the capacity is a pyramid's side²·h/3; with no height it is zero |
| SquareToRound.SheetWeight | src/features/square-to-round/logic.ts:25-29 | the sheet area is the mean of the square's and circle's perimeters times the slant; the weight is that area times thickness and density |
| SquareToRound.EmptyRecord | src/features/square-to-round/logic.ts:5-9 | an empty record reads as all zeros |
| Elbow.Read | src/features/elbow/logic.ts:5-10 | an unset segment count reads as 3 and an unset angle as 90 |
| Elbow.Evaluate | src/features/elbow/logic.ts:13-79 | fewer than two segments gives the single error metric, one step and the four inputs; otherwise twelve metrics, five steps, and a payload of the ten listed keys including the cut angle |
| Elbow.ReportedCutHeights | src/features/elbow/logic.ts:74-78 | a valid elbow's payload holds the four segment heights and the pipe circumference, the full heights being twice the half ones |
| Elbow.Calculate | src/features/elbow/logic.ts:4 | the exported calculator: Evaluate of Read; without a segment count the default three segments are accepted |
| Elbow.Refusal | src/features/elbow/logic.ts:13 | the refusal carries the error metric, one step and exactly the four inputs |
| Elbow.AssembleKeys | src/features/elbow/logic.ts:74-78 | the full payload has exactly the ten listed keys |
| Elbow.JointsSpanTheBend | src/features/elbow/logic.ts:16-18 | the joint angles add up to the bend, and each cut is half a joint |
| Elbow.CutHeights | src/features/elbow/logic.ts:22-32 | long and short halves differ by D·tan α and sum to 2R·tan α; the full heights double them; the short side vanishes when the bend radius is D/2 |
| Elbow.SweptAlongTheArc | src/features/elbow/logic.ts:35-46 | the centreline arc is the radius times the bend in radians; surface, capacity and weight are the pipe swept along it |
| Elbow.DefaultElbow | src/features/elbow/logic.ts:7-8 | an empty record is a valid 90° elbow of three segments with 45° joints and 22.5° cuts |
| Elbow.RefusedOnlyForExplicitCount | src/features/elbow/logic.ts:7-13 | a refusal happens only when the record gives a non-zero segment count below two |
| Elbow.OneSegmentIsAnError | src/features/elbow/logic.ts:13 | one segment is refused |
| Offset.Evaluate | src/features/offset/logic.ts:42-66 | always nine metrics and five steps; the payload is exactly diameter, offset, run, travel and angle, the inputs echoed and the angle being the turn in degrees |
| Offset.Calculate | src/features/offset/logic.ts:4 | the exported calculator: Evaluate of Read; the payload carries the record's offset (0 when unset) |
| Offset.TravelIsHypotenuse | src/features/offset/logic.ts:13 | the travel is the non-negative hypotenuse over the offset and the run, and it is the travel in the payload |
| Offset.StraightRun | src/features/offset/logic.ts:13 | with no offset the travel is the run |
| Offset.CutIsHalfTheTurn | src/features/offset/logic.ts:16-28 | the payload's angle is the turn atan2(offset, run) in degrees, the mitre cut is half of it, and the cut back is D·tan of that half |
| Offset.SweptAlongTheTravel | src/features/offset/logic.ts:31-40 | surface, capacity and weight are the pipe swept along the travel |
| Offset.EmptyRecord | src/features/offset/logic.ts:5-9 | an empty record reads as all zeros |
| PipeBranching.Read | src/features/pipe-branching/logic.ts:21-23 | an unset angle reads as 90 and unset diameters as 0 |
| PipeBranching.Evaluate | src/features/pipe-branching/logic.ts:26-96 | a non-positive diameter or angle gives the empty result; otherwise five metrics, four steps, the inputs and the normalised profile |
| PipeBranching.Calculate | src/features/pipe-branching/logic.ts:20 | the exported calculator: Evaluate of Read; a missing diameter gives the empty result |
| PipeBranching.RawPoints | src/features/pipe-branching/logic.ts:42-63 | thirteen points, each at its division angle with the raw ordinate there |
| PipeBranching.MinHeight | src/features/pipe-branching/logic.ts:66 | a lower bound of the heights that some point attains |
| PipeBranching.MaxHeight | src/features/pipe-branching/logic.ts:73 | an upper bound of the heights that some point attains |
| PipeBranching.MarksSpanTheCircle | src/features/pipe-branching/logic.ts:39-62 | the marks run from 0° to 360° in strictly increasing 30° steps |
| PipeBranching.NormalizeShifts | src/features/pipe-branching/logic.ts:66-70 | normalising keeps the length, angles and every height difference, leaves no height negative and puts some point at zero |
| PipeBranching.ProfileShape | src/features/pipe-branching/logic.ts:42-70 | the profile has thirteen points at the division angles, with the raw ordinates' differences, all non-negative, the lowest at zero |
| PipeBranching.MaxCutHeightBounds | src/features/pipe-branching/logic.ts:73 | the maximum cut height is non-negative, bounds every point and is attained |
| PipeBranching.PerpendicularOrdinate | src/features/pipe-branching/logic.ts:51-56 | for a 90° branch the ordinate is R − √(R² − (r·sin φ)²) with no slope term |
| PipeBranching.DevelopedLength | src/features/pipe-branching/logic.ts:72 | the developed length in the payload is π times the branch diameter |
| PipeBranching.EmptyRecord | src/features/pipe-branching/logic.ts:21-32 | an empty record reads as zero diameters at 90° and gives the empty result |
| ArcCalculator.Evaluate | src/features/arc-calculator/logic.ts:9-51 | a non-positive chord or sagitta gives the empty result; otherwise five metrics, three steps and a payload with chord, sagitta, radius, and the angle and length of the minor arc, as the code computes them |
| ArcCalculator.Calculate | src/features/arc-calculator/logic.ts:3 | the exported calculator: Evaluate of Read; a missing chord or sagitta gives the empty result |
| ArcCalculator.Radius | src/features/arc-calculator/logic.ts:19 | the radius of a valid arc is positive |
| ArcCalculator.RadiusCoversHalfChord | src/features/arc-calculator/logic.ts:19-24 | the radius is at least half the chord, so the arcsine argument is in (0, 1] and the clamp never changes it |
| ArcCalculator.CentreDistance | src/features/arc-calculator/logic.ts:19 | the radius formula puts the centre R − h from the chord, on the circle through the chord's ends |
| ArcCalculator.SagittaRecovered | src/features/arc-calculator/logic.ts:19 | for a shallow arc the sagitta is recovered from the radius and half chord |
| ArcCalculator.DeepArc | src/features/arc-calculator/logic.ts:19 | the sagitta exceeds the radius exactly when it exceeds half the chord |
| ArcCalculator.MinorArcOnly | src/features/arc-calculator/logic.ts:25 | as written, the angle is at most π even when the sagitta exceeds the radius |
| ArcCalculator.DeepArcExample | src/features/arc-calculator/logic.ts:19-25 | chord 100 and sagitta 100 give radius 62.5 and arcsine argument 0.8 for an arc deeper than its radius |
| ArcCalculator.SweepMatchesSagitta | src/features/arc-calculator/logic.ts:25 | the corrected angle is at most π for a shallow arc and at least π for a deep one |
| ArcCalculator.LengthFromDegrees | src/features/arc-calculator/logic.ts:26-29 | the reported degree figure converts back to the angle, and the reported length is the radius times the angle; the corrected figures relate the same way |
| ArcCalculator.CentreOffset | src/features/arc-calculator/logic.ts:19-25 | R·cos of half the reported angle is the centre's distance to the chord, R − h for a shallow arc and h − R for a deep one |
| ArcCalculator.MinorAngleMissesDeepSagitta | src/features/arc-calculator/logic.ts:25 | as written, for a deep arc the reported angle describes a rise of 2R − h, never the sagitta entered |
| ArcCalculator.SagittaFromAngle | src/features/arc-calculator/logic.ts:25 | the corrected angle θ reproduces the sagitta, R − R·cos(θ/2) = h, for shallow and deep arcs alike |
| ArcCalculator.EmptyRecord | src/features/arc-calculator/logic.ts:4-15 | an empty record gives the empty result |
| Bracket.Read | src/features/bracket/logic.ts:5-13 | an unset safety factor reads as 2 and is never zero; an unset load is 0 |
| Bracket.Allowable | src/features/bracket/logic.ts:51 | the allowable stress times the safety factor is the 250 MPa yield |
| Bracket.Analyse | src/features/bracket/logic.ts:47-65 | no section means not applicable; otherwise stress × area is the force in N, and the verdict is danger exactly when the stress exceeds the allowable |
| Bracket.Evaluate | src/features/bracket/logic.ts:15-94 | a missing leg gives the warning metric, one step and the three inputs; otherwise nine metrics, five steps, and the diagonal and both angles |
| Bracket.Calculate | src/features/bracket/logic.ts:4 | the exported calculator: Evaluate of Read; a missing leg gives the warning |
| Bracket.DiagonalIsHypotenuse | src/features/bracket/logic.ts:24 | the diagonal is the non-negative hypotenuse over the two legs |
| Bracket.AnglesComplementary | src/features/bracket/logic.ts:28-32 | the base and top angles add up to 90°, and the base angle is atan2(H, B) |
| Bracket.ForceResolvesLoad | src/features/bracket/logic.ts:37-38 | the diagonal's force resolved vertically is the load, and in N it is g times the force in kgf |
| Bracket.SafeIffWithinMaxLoad | src/features/bracket/logic.ts:49-65 | safe exactly when the load is at most the theoretical maximum load, danger exactly when it is above |
| Bracket.NoLoadIsSafe | src/features/bracket/logic.ts:49-65 | with no load and a positive factor the stress is zero and the verdict safe |
| Bracket.NoSection | src/features/bracket/logic.ts:49-65 | without a section no stress or maximum is computed |
| Bracket.DiagonalWeight | src/features/bracket/logic.ts:68-69 | the weight is the diagonal's volume times the density |
| Bracket.EmptyRecord | src/features/bracket/logic.ts:5-13 | an empty record reads as zeros with safety factor 2 |
| Bolts.Read | src/features/bolts/logic.ts:5-9 | unset fields read as one M12 class 8.8 bolt under no load; the count is never zero |
| Bolts.Evaluate | src/features/bolts/logic.ts:12-74 | an unknown size or class gives the error metric, no steps and an empty payload; otherwise nine metrics, five steps, and the size, class, pitch and diameter |
| Bolts.Calculate | src/features/bolts/logic.ts:4 | the exported calculator: Evaluate of Read; with neither size nor class given, the default M12 8.8 is rated |
| Bolts.Rate | src/features/bolts/logic.ts:31-43 | no load means no rating and zero utilisation |
| Bolts.RatingBands | src/features/bolts/logic.ts:34-43 | above the group's yield is overload, above 80% of it alert, otherwise safe; utilisation is the load as a percentage of the group's yield |
| Bolts.BoundaryRatings | src/features/bolts/logic.ts:36-41 | exactly 80% is safe and exactly 100% is alert |
| Bolts.CapacityShape | src/features/bolts/logic.ts:24-28 | a bolt's yield load is positive and at most its rupture load; the group's capacity is the count times the yield load |
| Bolts.TorquePerYieldLoad | src/features/bolts/logic.ts:48-53 | the torque is 0.2·d·(0.75·yield load), that is 0.15·d·F N·m with d in mm and F in kN |
| Bolts.NumeralValue | src/features/bolts/logic.ts:50 | the decimal numeral of n reads back as n |
| Bolts.ParseDigitString | src/features/bolts/logic.ts:50 | parsing a string of digits gives its decimal value |
| Bolts.ParseNumeral | src/features/bolts/logic.ts:50 | parsing the numeral of n gives n |
| Bolts.DigitRunOfDigits | src/features/bolts/logic.ts:50 | in a string of digits the digit run is the whole string |
| Bolts.SizeNameGivesDiameter | src/features/bolts/logic.ts:50 | "M" followed by the numeral of n reads as diameter n |
| Bolts.TableDiameters | src/features/bolts/logic.ts:50 | every size of the table reads as its nominal diameter, M6 as 6 through M36 as 36 |
| Bolts.UnknownSelection | src/features/bolts/logic.ts:15-21 | an unknown size or class gives the error result |
| Bolts.DefaultBolt | src/features/bolts/logic.ts:5-53 | an empty record is one M12 8.8 bolt: 53.952 kN yield load, no rating, torque 0.15·12·53.952 |
| Stairs.Read | src/features/stairs/logic.ts:5-9 | an unset base takes the length field; an unset thickness is 0 |
| Stairs.StepCount | src/features/stairs/logic.ts:32-33 | a flight always has at least one step |
| Stairs.Plan | src/features/stairs/logic.ts:27-76 | the flight's figures are the step count, rise, run, weight, volume, stringer lengths, sheet area in m², slope angle and total tread length |
| Stairs.Waiting | src/features/stairs/logic.ts:11-24 | the waiting result is the warning metric and one step; it echoes height and base, carries the waiting status and zeros everywhere else |
| Stairs.WaitingKeysExact | src/features/stairs/logic.ts:11-24 | the waiting payload has exactly the eleven listed keys |
| Stairs.AssembleKeys | src/features/stairs/logic.ts:82-115 | the full payload has exactly the thirteen listed keys |
| Stairs.Full | src/features/stairs/logic.ts:82-115 | a valid flight gives ten metrics, five steps, and a payload holding the step count, rise, run and weight |
| Stairs.FlightFigures | src/features/stairs/logic.ts:82-115 | a valid flight's payload holds the stringer length, the sheet area in m², the volume, the slope angle, both stringers and the total tread length |
| Stairs.Evaluate | src/features/stairs/logic.ts:11-115 | no height gives the waiting result; otherwise ten metrics, five steps and the full payload; height and base are always echoed |
| Stairs.Calculate | src/features/stairs/logic.ts:4 | the exported calculator: Evaluate of Read; without a height it waits for data |
| Stairs.WaitingIsZero | src/features/stairs/logic.ts:11-24 | the waiting payload zeroes the weight, force, stress, maximum load, width, diagonal and angles |
| Stairs.StepsNearestIdeal | src/features/stairs/logic.ts:32-33 | the step count is the height over 175 mm rounded to nearest, and one below 87.5 mm |
| Stairs.StepsFillTheFlight | src/features/stairs/logic.ts:36-39 | the rises add up to the height, the runs to the base; without a base each run is 280 mm |
| Stairs.BlondelForTheFlight | src/features/stairs/logic.ts:42-44 | Blondel's 630–650 mm rule holds for one step exactly when 630n ≤ 2H + B ≤ 650n for the whole flight |
| Stairs.StringersSpanTheSlope | src/features/stairs/logic.ts:47-48 | each stringer is the hypotenuse of height and base, and there are two of them |
| Stairs.WeightBranches | src/features/stairs/logic.ts:60-76 | with a thickness the weight is area × thickness × density; without one it is the per-metre estimate and there is no volume |
| Stairs.BaseFallsBackToLength | src/features/stairs/logic.ts:7-9 | an unset or zero base takes the length field |
| PlateWeight.Read | src/features/plate-weight/logic.ts:5-18 | an unset quantity reads as one plate and is never zero; an unknown material gets 7.85 |
| PlateWeight.Evaluate | src/features/plate-weight/logic.ts:10-59 | a non-positive dimension gives no metrics, one step and an empty payload; otherwise six metrics, five steps and the dimensions, weights, total area and one plate's volume |
| PlateWeight.Calculate | src/features/plate-weight/logic.ts:4 | the exported calculator: Evaluate of Read; without a width there is no plate |
| PlateWeight.PlateMass | src/features/plate-weight/logic.ts:22-24 | a plate's weight is width × length × thickness × density, positive for a valid plate |
| PlateWeight.LotTotals | src/features/plate-weight/logic.ts:27-29 | the lot's weight and area are one plate's times the quantity |
| PlateWeight.WeightScalesWithDensity | src/features/plate-weight/logic.ts:24 | the weight is proportional to the density |
| PlateWeight.EmptyRecord | src/features/plate-weight/logic.ts:10-16 | an empty record is not a plate |
| Volumes.ShapeOf | src/features/volumes/logic.ts:4 | an unset solid is a cylinder |
| Volumes.CylinderSolid | src/features/volumes/logic.ts:11-29 | a cylinder is measured exactly when diameter and height are both positive |
| Volumes.ConeSolid | src/features/volumes/logic.ts:30-52 | a cone is measured exactly when diameter and height are both positive |
| Volumes.BoxSolid | src/features/volumes/logic.ts:53-70 | a box is measured exactly when all three sides are positive |
| Volumes.PyramidSolid | src/features/volumes/logic.ts:71-97 | a pyramid is measured exactly when all three dimensions are positive |
| Volumes.SphereSolid | src/features/volumes/logic.ts:98-115 | a sphere is measured exactly when its diameter is positive |
| Volumes.Payload | src/features/volumes/logic.ts:127-135 | every input field is handed back, with volume and area written over any fields of those names |
| Volumes.Evaluate | src/features/volumes/logic.ts:127-135 | always the three metrics, the solid's steps and its payload |
| Volumes.Calculate | src/features/volumes/logic.ts:3 | the exported calculator: Evaluate of the measured solid; the three metrics are always shown, and an unset solid is a cylinder with five steps or nothing |
| Volumes.ThirdOfThePrism | src/features/volumes/logic.ts:11-97 | a cone is a third of the cylinder and a pyramid a third of the box on the same base and height |
| Volumes.CylinderSurface | src/features/volumes/logic.ts:11-29 | the cylinder's surface is its two ends plus its side |
| Volumes.ConeSurface | src/features/volumes/logic.ts:30-52 | the cone's surface is base plus πrg, with g the hypotenuse of radius and height |
| Volumes.SphereVolumeFromSurface | src/features/volumes/logic.ts:98-115 | a sphere's volume is its surface 4πr² times r/3 |
| Volumes.SquarePyramid | src/features/volumes/logic.ts:71-97 | on a square base the surface is the base plus four equal triangles |
| Volumes.FaceSlants | src/features/volumes/logic.ts:71-97 | each face slant is the hypotenuse of the height and half the other side |
| Volumes.NothingMeasured | src/features/volumes/logic.ts:127-135 | an unmeasured solid still shows the three metrics, with no steps and zero volume and area |
| Volumes.UnknownShape | src/features/volumes/logic.ts:4-115 | an unrecognised solid measures nothing |
| Volumes.Units | src/features/volumes/logic.ts:118-125 | litres are mm³ over 10⁶, m³ are mm³ over 10⁹, and m² are mm² over 10⁶ |

## Left out

- Metric texts, unit suffixes, `toFixed` formatting and step sentences: only the metric labels, their order and the number of steps are modelled.
- Floating point: the model computes on exact reals. A NaN or infinity from a division by zero is represented by `Numerics.Div`, which yields 0. In the bolt calculator, a size that does not parse reads as diameter 0.
- The square root of a negative number in the branch saddle, when the branch is wider than the header, is whatever the `MathLib` parameter returns.
- The saddle's slope term `r·cos φ / tan α` is written as `r·cos φ·cos α / sin α`. This is the same quantity for every angle whose tangent is defined.
- An input field of the wrong kind reads as missing. The selector fields `subShape`, `diameterStr` and `boltClass` given as numbers are not modelled.
- Bracket.Evaluate: the safety verdict, stress and maximum load appear only among the metric texts, so they are stated by `Bracket.Analyse` rather than by the result.
- Bolts.Evaluate: the utilisation and rating appear only among the metric texts, so they are stated by `Bolts.Rate` rather than by the result.
- Stairs.Evaluate: the Blondel verdict is a metric text, and is modelled by `Stairs.BlondelOk`.
- Stairs.Evaluate: only the metrics, step count, keys and the height/base echo are stated here. The per-key values of a valid flight are stated by `Stairs.Full` (step count, rise, run and weights) and `Stairs.FlightFigures` (the other six).
- `Math.round` is modelled as ⌊x + 0.5⌋, which is what JavaScript does for the positive quotients that reach it.
- The volumes calculator's `null` return is unreachable; it always returns a result.
- Theory texts, React components, PDF export, canvas drawings and the dispatch in `App.tsx` are outside the calculators' logic.
- Every `calculateX` declares `material = 'steel'` as a default argument; each `Calculate` takes the material as a required argument instead, so the default is not modelled (the application always passes one).
- The cylinder calculator has no input guard, and a utilisation of exactly 80% rates as safe (`Bolts.BoundaryRatings`).

## Findings

| source | as written | input that shows it | evidently intended | confidence | as-written member | corrected member |
|---|---|---|---|---|---|---|
| src/features/arc-calculator/logic.ts:25 | the opening angle is `2·asin(c / 2R)`, which never exceeds 180° | chord 100, sagitta 100: R = 62.5 and the arcsine argument is 0.8, so the result is about 106.3°, but an arc that rises 100 over a chord of 100 sweeps about 253.7° | when the sagitta exceeds the radius, the major arc: 2π − 2·asin(c / 2R) | not executed | ArcCalculator.MinorAngleMissesDeepSagitta | ArcCalculator.SagittaFromAngle |

=== FILE: arc_calculator.dfy ===
/** The rolled-arc calculator (src/features/arc-calculator/logic.ts): from
    the chord `c` and the sagitta (rise) `h` of a circular arc, its radius,
    opening angle and developed length. */
module ArcCalculator {
  import opened Numerics
  import opened Records

  /** Chord and sagitta in mm. The calculator takes no material. */
  datatype Dimensions = Dimensions(chord: real, sagitta: real)

  function Read(data: Data): (d: Dimensions)
    ensures "chord" !in data ==> d.chord == 0.0
    ensures "sagitta" !in data ==> d.sagitta == 0.0
  {
    Dimensions(NumberOr(data, "chord", 0.0), NumberOr(data, "sagitta", 0.0))
  }

  /** Both chord and sagitta must be positive. */
  predicate Valid(d: Dimensions) {
    0.0 < d.chord && 0.0 < d.sagitta
  }

  function HalfChord(d: Dimensions): real { d.chord / 2.0 }

  /** The radius through both chord ends and the apex, R = (c² + 4h²)/(8h). */
  function Radius(d: Dimensions): (r: real)
    requires Valid(d)
    ensures 0.0 < r
  {
    (d.chord * d.chord + 4.0 * d.sagitta * d.sagitta) / (8.0 * d.sagitta)
  }

  /** `c/(2R)`, clamped to [−1, 1] before the arcsine. */
  function AsinArg(d: Dimensions): real
    requires Valid(d)
  {
    Clamp(-1.0, 1.0, d.chord / (2.0 * Radius(d)))
  }

  /** The opening angle as the source computes it, `2·asin(c/(2R))`: this is
      always the minor arc's angle. */
  function MinorAngleRad(m: MathLib, d: Dimensions): real
    requires Valid(d)
  {
    2.0 * Asin(m, AsinArg(d))
  }

  /** The opening angle in degrees as the source reports it. */
  function MinorAngleDeg(m: MathLib, d: Dimensions): real
    requires Valid(d)
  {
    Degrees(MinorAngleRad(m, d))
  }

  /** The developed length as the source reports it, R times the minor
      arc's angle. */
  function MinorArcLength(m: MathLib, d: Dimensions): real
    requires Valid(d)
  {
    Radius(d) * MinorAngleRad(m, d)
  }

  /** The opening angle of the arc the chord and sagitta describe: the minor
      arc's angle while the sagitta is at most half the chord, and the rest of
      the full turn once the sagitta passes the centre. */
  function AngleRad(m: MathLib, d: Dimensions): real
    requires Valid(d)
  {
    if d.sagitta <= d.chord / 2.0 then MinorAngleRad(m, d)
    else PiTimes(2.0) - MinorAngleRad(m, d)
  }

  function AngleDeg(m: MathLib, d: Dimensions): real
    requires Valid(d)
  {
    Degrees(AngleRad(m, d))
  }

  /** The developed length of the arc the chord and sagitta describe, R·θ. */
  function ArcLength(m: MathLib, d: Dimensions): real
    requires Valid(d)
  {
    Radius(d) * AngleRad(m, d)
  }

  const MetricLabels: seq<string> := [
    "Raio Calculado (R)", "Perímetro do Arco", "Ângulo de Abertura", "Corda (C)", "Flecha (h)"]

  const PayloadKeys: seq<string> := ["radius", "arcLength", "angleDeg", "chord", "sagitta"]

  /** Invalid dimensions give the empty result; otherwise five metrics, three
      steps, and the radius, length and angle alongside the two inputs. The
      angle and length are the source's, from the minor arc's angle. */
  function Evaluate(m: MathLib, d: Dimensions): (r: CalcResult)
    ensures !Valid(d) ==> r == Blank
    ensures Valid(d) ==>
      r.metrics == MetricLabels && r.stepCount == 3 && KeysAre(r.calculated, PayloadKeys) &&
      r.calculated["chord"] == Num(d.chord) && r.calculated["sagitta"] == Num(d.sagitta) &&
      r.calculated["radius"] == Num(Radius(d)) &&
      r.calculated["angleDeg"] == Num(MinorAngleDeg(m, d)) &&
      r.calculated["arcLength"] == Num(MinorArcLength(m, d))
  {
    if !Valid(d) then Blank
    else
      CalcResult(MetricLabels, 3, map[
        "radius" := Num(Radius(d)), "arcLength" := Num(MinorArcLength(m, d)),
        "angleDeg" := Num(MinorAngleDeg(m, d)), "chord" := Num(d.chord), "sagitta" := Num(d.sagitta)])
  }

  /** `calculateArc`: the record's chord and sagitta, unset ones read as 0,
      evaluated. */
  function Calculate(m: MathLib, data: Data): (r: CalcResult)
    ensures r == Evaluate(m, Read(data))
    ensures "chord" !in data || "sagitta" !in data ==> r == Blank
  {
    Evaluate(m, Read(data))
  }

  /** The radius is at least half the chord, so `c/(2R)` already lies in
      (0, 1] and the clamp never changes it. */
  lemma RadiusCoversHalfChord(d: Dimensions)
    requires Valid(d)
    ensures 0.0 < d.chord / 2.0 <= Radius(d)
    ensures 0.0 < d.chord / (2.0 * Radius(d)) <= 1.0
    ensures AsinArg(d) == d.chord / (2.0 * Radius(d))
  {
    var c, h, R := d.chord, d.sagitta, Radius(d);
    assert R * (8.0 * h) == c * c + 4.0 * h * h;
    assert (R - c / 2.0) * (8.0 * h) == (c - 2.0 * h) * (c - 2.0 * h);
    NonNegativeFactor(R - c / 2.0, 8.0 * h, c - 2.0 * h);
    assert d.chord / (2.0 * R) * (2.0 * R) == c;
  }

  /** The radius closes the right triangle of half chord, radius and the
      centre's distance to the chord: (R − h)² = R² − (c/2)². */
  lemma CentreDistance(d: Dimensions)
    requires Valid(d)
    ensures var R, h := Radius(d), d.sagitta;
      (R - h) * (R - h) == R * R - (d.chord / 2.0) * (d.chord / 2.0)
  {
    var c, h, R := d.chord, d.sagitta, Radius(d);
    assert R * (8.0 * h) == c * c + 4.0 * h * h;
    assert 2.0 * R * h == h * h + c * c / 4.0;
  }

  /** For an arc no deeper than a semicircle, the sagitta is recovered from
      the radius as R − √(R² − (c/2)²). */
  lemma SagittaRecovered(m: MathLib, d: Dimensions)
    requires SqrtLaw(m)
    requires Valid(d) && d.sagitta <= d.chord / 2.0
    ensures Radius(d) - Sqrt(m, Sq(Radius(d)) - Sq(HalfChord(d))) == d.sagitta
  {
    var c, h, R := d.chord, d.sagitta, Radius(d);
    CentreDistance(d);
    assert R * (8.0 * h) == c * c + 4.0 * h * h;
    assert (R - h) * (8.0 * h) == (c - 2.0 * h) * (c + 2.0 * h);
    SameSign(R - h, 8.0 * h, c - 2.0 * h, c + 2.0 * h);
    var q := Sq(R) - Sq(HalfChord(d));
    assert q == (R - h) * (R - h);
    SqrtOfSquare(m, q, R - h);
  }

  /** The sagitta passes the radius exactly when it passes half the chord. */
  lemma DeepArc(d: Dimensions)
    requires Valid(d)
    ensures Radius(d) < d.sagitta <==> d.chord / 2.0 < d.sagitta
  {
    var c, h, R := d.chord, d.sagitta, Radius(d);
    assert R * (8.0 * h) == c * c + 4.0 * h * h;
    assert (R - h) * (8.0 * h) == (c - 2.0 * h) * (c + 2.0 * h);
    SameSign(R - h, 8.0 * h, c - 2.0 * h, c + 2.0 * h);
  }

  /** As written, the opening angle never exceeds half a turn, even when the
      sagitta is larger than the radius and the arc therefore runs past the
      centre around more than half the circle. */
  lemma MinorArcOnly(m: MathLib, d: Dimensions)
    requires AsinRangeLaw(m)
    requires Valid(d) && d.chord / 2.0 < d.sagitta
    ensures Radius(d) < d.sagitta
    ensures MinorAngleRad(m, d) <= Pi
  {
    DeepArc(d);
    RadiusCoversHalfChord(d);
  }

  /** Chord 100 and sagitta 100: the radius is 62.5 and the arcsine argument
      0.8, so the source reports 2·asin(0.8) ≈ 106.3° for an arc whose rise of
      100 exceeds its radius, that is an arc of about 253.7°. */
  lemma DeepArcExample()
    ensures var d := Dimensions(100.0, 100.0);
      Valid(d) && Radius(d) == 62.5 && AsinArg(d) == 0.8 && Radius(d) < d.sagitta
  {
    var d := Dimensions(100.0, 100.0);
    assert Radius(d) == 62.5;
  }

  /** The opening angle agrees with the sagitta: at most half a turn while
      the sagitta is within half the chord, at least half a turn once it
      passes the radius. */
  lemma SweepMatchesSagitta(m: MathLib, d: Dimensions)
    requires AsinRangeLaw(m)
    requires Valid(d)
    ensures d.sagitta <= d.chord / 2.0 ==> AngleRad(m, d) <= Pi
    ensures Radius(d) < d.sagitta ==> Pi <= AngleRad(m, d)
  {
    DeepArc(d);
    RadiusCoversHalfChord(d);
  }

  /** The centre's distance to the chord, R·cos of half the minor arc's
      angle, is R − h for a shallow arc and h − R for a deep one. */
  lemma CentreOffset(m: MathLib, d: Dimensions)
    requires SqrtLaw(m) && CosAsinLaw(m)
    requires Valid(d)
    ensures var R, h := Radius(d), d.sagitta; var e := R * Cos(m, MinorAngleRad(m, d) / 2.0);
      (h <= R ==> e == R - h) && (R < h ==> e == h - R)
  {
    var c, h, R := d.chord, d.sagitta, Radius(d);
    RadiusCoversHalfChord(d);
    var a := AsinArg(d);
    assert R * a == c / 2.0;
    assert a * a <= 1.0 by {
      ScaleCompare(a, 1.0, a);
    }
    var s := Sqrt(m, 1.0 - a * a);
    assert MinorAngleRad(m, d) / 2.0 == Asin(m, a);
    CosOfAsin(m, a);
    assert 0.0 <= s && s * s == 1.0 - a * a;
    var e := R * s;
    assert 0.0 <= e by {
      CompareScaled(0.0, s, R, 0.0, s * R);
    }
    assert e * e == R * R - (R * a) * (R * a) by {
      assert e * e == R * R * (s * s);
    }
    CentreDistance(d);
    DeepArc(d);
    if h <= R {
      SameRoot(e, R - h);
    } else {
      SameRoot(e, h - R);
    }
  }

  /** As written, half the reported angle puts the apex R + |R − h| from the
      chord when the arc is deep: the angle describes a rise of 2R − h, not
      the sagitta that was entered. */
  lemma MinorAngleMissesDeepSagitta(m: MathLib, d: Dimensions)
    requires SqrtLaw(m) && CosAsinLaw(m)
    requires Valid(d) && d.chord / 2.0 < d.sagitta
    ensures Radius(d) - Radius(d) * Cos(m, MinorAngleRad(m, d) / 2.0) == 2.0 * Radius(d) - d.sagitta
    ensures Radius(d) - Radius(d) * Cos(m, MinorAngleRad(m, d) / 2.0) != d.sagitta
  {
    DeepArc(d);
    CentreOffset(m, d);
  }

  /** The corrected angle reproduces the sagitta: R − R·cos(θ/2) = h, for a
      shallow and for a deep arc alike. */
  lemma SagittaFromAngle(m: MathLib, d: Dimensions)
    requires SqrtLaw(m) && CosAsinLaw(m) && SupplementLaw(m)
    requires Valid(d)
    ensures Radius(d) - Radius(d) * Cos(m, AngleRad(m, d) / 2.0) == d.sagitta
  {
    var h, R := d.sagitta, Radius(d);
    var half := MinorAngleRad(m, d) / 2.0;
    DeepArc(d);
    CentreOffset(m, d);
    if h > d.chord / 2.0 {
      assert AngleRad(m, d) / 2.0 + half == Pi;
      assert Cos(m, AngleRad(m, d) / 2.0) == -Cos(m, half);
    }
  }

  /** The reported degree figure converts back to the minor arc's angle, and
      the reported length is the radius times that angle; the corrected
      figures relate the same way. */
  lemma LengthFromDegrees(m: MathLib, d: Dimensions)
    requires Valid(d)
    ensures Radians(MinorAngleDeg(m, d)) == MinorAngleRad(m, d)
    ensures MinorArcLength(m, d) == Radius(d) * Radians(MinorAngleDeg(m, d))
    ensures Radians(AngleDeg(m, d)) == AngleRad(m, d)
    ensures ArcLength(m, d) == Radius(d) * Radians(AngleDeg(m, d))
  {
  }

  /** An empty record gives the empty result. */
  lemma EmptyRecord(m: MathLib)
    ensures Calculate(m, map[]) == Blank
  {
  }
}

=== FILE: bolts.dfy ===
/** The bolt group calculator (src/features/bolts/logic.ts): `count` metric
    bolts of one size and strength class sharing a tensile load, with the
    group's yield capacity, its utilisation and a tightening torque. */
module Bolts {
  import opened Numerics
  import opened Records
  import Constants

  /** The selected size (`"M12"`) and class (`"8.8"`), the number of bolts
      and the load in kg. The calculator ignores the material. */
  datatype Inputs = Inputs(size: string, boltClass: string, count: real, loadKg: real)

  /** An unset size reads as M12, an unset class as 8.8, an unset count as
      one bolt. */
  function Read(data: Data): (b: Inputs)
    ensures "diameterStr" !in data ==> b.size == "M12"
    ensures "boltClass" !in data ==> b.boltClass == "8.8"
    ensures "count" !in data ==> b.count == 1.0
    ensures "load" !in data ==> b.loadKg == 0.0
    ensures b.count != 0.0
  {
    Inputs(
      StringOr(data, "diameterStr", "M12"),
      StringOr(data, "boltClass", "8.8"),
      NumberOr(data, "count", 1.0),
      NumberOr(data, "load", 0.0))
  }

  /** The load in kN. */
  function LoadKn(b: Inputs): real {
    b.loadKg * 9.81 / 1000.0
  }

  /** Both selections must name a row of the tables. */
  predicate Known(b: Inputs) {
    b.size in Constants.BoltData && b.boltClass in Constants.BoltClasses
  }

  /** Per-bolt loads at yield and at rupture, and the whole group's yield
      capacity, all in kN. */
  datatype Capacity = Capacity(yieldLoad: real, tensileLoad: real, totalYield: real)

  function GroupCapacity(b: Inputs): Capacity
    requires Known(b)
  {
    var size := Constants.BoltData[b.size];
    var grade := Constants.BoltClasses[b.boltClass];
    var yieldLoad := size.area * grade.yieldStress / 1000.0;
    Capacity(yieldLoad, size.area * grade.tensileStress / 1000.0, yieldLoad * b.count)
  }

  /** The verdict shown as "Status". */
  datatype Status = Overload | Alert | Safe | NotApplicable

  /** Utilisation in percent and its verdict. */
  datatype Rating = Rating(utilization: real, status: Status)

  /** A positive load is rated against the group's capacity: above 100 % is
      an overload, above 80 % an alert, anything else safe. No load is not
      rated. */
  function Rate(loadKn: real, totalYield: real): (r: Rating)
    ensures loadKn <= 0.0 <==> r.status == NotApplicable
    ensures loadKn <= 0.0 ==> r.utilization == 0.0
  {
    if 0.0 < loadKn then
      var u := Div(loadKn, totalYield) * 100.0;
      Rating(u, if u > 100.0 then Overload else if u > 80.0 then Alert else Safe)
    else
      Rating(0.0, NotApplicable)
  }

  // ---- parseInt ----------------------------------------------------------

  predicate IsDigit(c: char) {
    '0' <= c <= '9'
  }

  function DigitValue(c: char): (v: nat)
    requires IsDigit(c)
    ensures v < 10
  {
    (c - '0') as nat
  }

  function DigitChar(v: nat): (c: char)
    requires v < 10
    ensures IsDigit(c) && DigitValue(c) == v
  {
    ('0' as int + v) as char
  }

  /** The number of leading decimal digits. */
  function DigitRun(s: string): (n: nat)
    ensures n <= |s|
    ensures forall i :: 0 <= i < n ==> IsDigit(s[i])
    ensures n < |s| ==> !IsDigit(s[n])
  {
    if |s| == 0 || !IsDigit(s[0]) then 0 else 1 + DigitRun(s[1..])
  }

  /** The value of a string of decimal digits, most significant first. */
  function DigitsValue(s: string): nat
    requires forall i :: 0 <= i < |s| ==> IsDigit(s[i])
  {
    if |s| == 0 then 0 else DigitsValue(s[..|s| - 1]) * 10 + DigitValue(s[|s| - 1])
  }

  predicate IsBlank(c: char) {
    c == ' ' || c == '\t' || c == '\n' || c == '\r'
  }

  /** `s` without its leading blanks. */
  function TrimStart(s: string): string {
    if |s| > 0 && IsBlank(s[0]) then TrimStart(s[1..]) else s
  }

  /** A base-ten `parseInt(s)` over ASCII blanks: leading blanks are skipped, an
      optional sign is read, then as many digits as follow; without a digit
      the result is NaN, here `None`. */
  function ParseInt(s: string): Option<int> {
    var t := TrimStart(s);
    var u := SkipSign(t);
    var n := DigitRun(u);
    if n == 0 then None
    else
      var v: int := DigitsValue(u[..n]);
      Some(if |t| > 0 && t[0] == '-' then -v else v)
  }

  function SkipSign(t: string): (u: string)
    ensures |u| <= |t|
  {
    if |t| > 0 && (t[0] == '-' || t[0] == '+') then t[1..] else t
  }

  datatype Option<T> = None | Some(value: T)

  /** `s.replace(c, "")` with a one-character pattern: the first occurrence
      of `c` is removed, later ones stay. */
  function RemoveFirst(s: string, c: char): (r: string)
    ensures c !in s ==> r == s
    ensures c in s ==> |r| == |s| - 1
  {
    if |s| == 0 then s
    else if s[0] == c then s[1..]
    else [s[0]] + RemoveFirst(s[1..], c)
  }

  /** `parseInt(size.replace('M', ''))`; NaN is not a number this model can
      hold and reads as 0 (it cannot arise for a size of the table). */
  function DiameterMm(size: string): real {
    match ParseInt(RemoveFirst(size, 'M'))
    case Some(n) => n as real
    case None => 0.0
  }

  /** The decimal numeral of `n`, without leading zeros. */
  function Numeral(n: nat): (s: string)
    ensures |s| > 0
    ensures forall i :: 0 <= i < |s| ==> IsDigit(s[i])
  {
    if n < 10 then [DigitChar(n)] else Numeral(n / 10) + [DigitChar(n % 10)]
  }

  // ---- the calculator ----------------------------------------------------

  /** Tightening torque in N·m: K = 0.2 times the diameter in metres times a
      preload of 75 % of the yield load, in N. */
  function Torque(diameterMm: real, yieldLoad: real): real {
    var preloadN := yieldLoad * 0.75 * 1000.0;
    0.2 * (diameterMm / 1000.0) * preloadN
  }

  const MetricLabels: seq<string> := [
    "Diâmetro", "Área Resistente", "Classe", "Qtd. Parafusos", "Carga de Trabalho",
    "Capacidade Total (Yield)", "Utilização", "Status", "Torque Rec. (Seco)"]

  const PayloadKeys: seq<string> := ["diameterStr", "boltClassStr", "pitch", "diameterMm"]

  /** The full result around a size's pitch and nominal diameter. */
  function Assemble(b: Inputs, pitch: real, diameterMm: real): (r: CalcResult)
    ensures r.metrics == MetricLabels && r.stepCount == 5 && KeysAre(r.calculated, PayloadKeys)
    ensures "diameterStr" in r.calculated && r.calculated["diameterStr"] == Text(b.size)
    ensures "boltClassStr" in r.calculated && r.calculated["boltClassStr"] == Text(b.boltClass)
    ensures "pitch" in r.calculated && r.calculated["pitch"] == Num(pitch)
    ensures "diameterMm" in r.calculated && r.calculated["diameterMm"] == Num(diameterMm)
  {
    CalcResult(MetricLabels, 5, map[
      "diameterStr" := Text(b.size), "boltClassStr" := Text(b.boltClass),
      "pitch" := Num(pitch), "diameterMm" := Num(diameterMm)])
  }

  /** An unknown size or class gives the single error metric with no steps
      and an empty payload; otherwise nine metrics, five steps, and the
      selection, its pitch and its nominal diameter. */
  function Evaluate(b: Inputs): (r: CalcResult)
    ensures !Known(b) ==> r == CalcResult(["Erro"], 0, map[])
    ensures Known(b) ==>
      r.metrics == MetricLabels && r.stepCount == 5 && KeysAre(r.calculated, PayloadKeys) &&
      r.calculated["diameterStr"] == Text(b.size) &&
      r.calculated["boltClassStr"] == Text(b.boltClass) &&
      r.calculated["pitch"] == Num(Constants.BoltData[b.size].pitch) &&
      r.calculated["diameterMm"] == Num(DiameterMm(b.size))
  {
    if !Known(b) then CalcResult(["Erro"], 0, map[])
    else Assemble(b, Constants.BoltData[b.size].pitch, DiameterMm(b.size))
  }

  /** `calculateBolts`: the record read with its defaults, then evaluated;
      with neither size nor class given, the default M12 8.8 is rated. */
  function Calculate(data: Data): (r: CalcResult)
    ensures r == Evaluate(Read(data))
    ensures "diameterStr" !in data && "boltClass" !in data ==> r.metrics == MetricLabels
  {
    Evaluate(Read(data))
  }

  // ---- properties ----------------------------------------------------------

  /** The digits of a numeral read back as the number. */
  lemma {:induction false} NumeralValue(n: nat)
    ensures DigitsValue(Numeral(n)) == n
    decreases n
  {
    var s := Numeral(n);
    if n >= 10 {
      NumeralValue(n / 10);
      assert s[..|s| - 1] == Numeral(n / 10);
      assert DigitValue(s[|s| - 1]) == n % 10;
    }
  }

  /** A string that starts with a digit has no blanks or sign to skip. */
  lemma NothingToSkip(s: string)
    requires |s| > 0 && IsDigit(s[0])
    ensures TrimStart(s) == s && SkipSign(s) == s && s[0] != '-'
  {
  }

  /** `parseInt` reads a non-empty string of digits as its value. */
  lemma ParseDigitString(s: string)
    requires |s| > 0 && forall i :: 0 <= i < |s| ==> IsDigit(s[i])
    ensures ParseInt(s) == Some(DigitsValue(s) as int)
  {
    assert IsDigit(s[0]);
    NothingToSkip(s);
    DigitRunOfDigits(s);
    assert s[..|s|] == s;
  }

  /** `parseInt` reads a numeral back as its number. */
  lemma ParseNumeral(n: nat)
    ensures ParseInt(Numeral(n)) == Some(n as int)
  {
    ParseDigitString(Numeral(n));
    NumeralValue(n);
  }

  /** A string of digits is one run of digits. */
  lemma {:induction false} DigitRunOfDigits(s: string)
    requires forall i :: 0 <= i < |s| ==> IsDigit(s[i])
    ensures DigitRun(s) == |s|
    decreases |s|
  {
    if |s| > 0 {
      DigitRunOfDigits(s[1..]);
    }
  }

  /** A size named "M" and a numeral has that numeral as its diameter. */
  lemma SizeNameGivesDiameter(n: nat)
    ensures DiameterMm("M" + Numeral(n)) == n as real
  {
    assert RemoveFirst("M" + Numeral(n), 'M') == Numeral(n);
    ParseNumeral(n);
  }

  /** The numerals of the table's nominal diameters. */
  lemma TableNumerals()
    ensures Numeral(6) == "6" && Numeral(8) == "8"
    ensures Numeral(10) == "10" && Numeral(12) == "12" && Numeral(16) == "16"
    ensures Numeral(20) == "20" && Numeral(24) == "24"
    ensures Numeral(30) == "30" && Numeral(36) == "36"
  {
  }

  /** Each size of the table, read as a number, is its nominal diameter. */
  lemma TableDiameters()
    ensures forall i :: 0 <= i < |Constants.SizeOrder| ==>
      DiameterMm(Constants.SizeOrder[i]) == NominalDiameters[i] as real
  {
    TableNumerals();
    forall i | 0 <= i < |Constants.SizeOrder|
      ensures DiameterMm(Constants.SizeOrder[i]) == NominalDiameters[i] as real
    {
      SizeNameGivesDiameter(NominalDiameters[i]);
      assert Constants.SizeOrder[i] == "M" + Numeral(NominalDiameters[i]);
    }
  }

  /** The nominal diameters in mm, in the order of `Constants.SizeOrder`. */
  const NominalDiameters: seq<nat> := [6, 8, 10, 12, 16, 20, 24, 30, 36]

  /** Rupture load is never below yield load, and the group's capacity is
      one bolt's yield load times the count. */
  lemma CapacityShape(b: Inputs)
    requires Known(b)
    ensures var c := GroupCapacity(b);
      0.0 < c.yieldLoad <= c.tensileLoad && c.totalYield == c.yieldLoad * b.count
  {
    Constants.TensileAtLeastYield();
    Constants.SizesPositive();
    var size := Constants.BoltData[b.size];
    var grade := Constants.BoltClasses[b.boltClass];
    assert 0.0 < size.area && 0.0 < grade.yieldStress <= grade.tensileStress;
    ScaleCompare(grade.yieldStress, grade.tensileStress, size.area);
    assert 0.0 < size.area * grade.yieldStress by {
      ScaleCompare(0.0, grade.yieldStress, size.area);
    }
  }

  /** Against a positive capacity, the rating is an overload exactly when
      the load exceeds the capacity, an alert exactly when it lies above
      80 % of it and within it, and safe exactly when it is positive and at
      most 80 %. */
  lemma RatingBands(loadKn: real, totalYield: real)
    requires 0.0 < loadKn && 0.0 < totalYield
    ensures Rate(loadKn, totalYield).status == Overload <==> totalYield < loadKn
    ensures Rate(loadKn, totalYield).status == Alert <==> 0.8 * totalYield < loadKn <= totalYield
    ensures Rate(loadKn, totalYield).status == Safe <==> loadKn <= 0.8 * totalYield
    ensures Rate(loadKn, totalYield).utilization * totalYield == 100.0 * loadKn
  {
    var q := Div(loadKn, totalYield);
    assert q * totalYield == loadKn;
    CompareScaled(q, 1.0, totalYield, loadKn, totalYield);
    CompareScaled(q, 0.8, totalYield, loadKn, 0.8 * totalYield);
  }

  /** The thresholds are strict: a load of exactly 80 % of the capacity is
      still safe, and one of exactly 100 % only an alert. */
  lemma BoundaryRatings(totalYield: real)
    requires 0.0 < totalYield
    ensures Rate(0.8 * totalYield, totalYield).status == Safe
    ensures Rate(totalYield, totalYield).status == Alert
  {
    RatingBands(0.8 * totalYield, totalYield);
    RatingBands(totalYield, totalYield);
  }

  /** The torque is 0.15 N·m per mm of diameter per kN of yield load. */
  lemma TorquePerYieldLoad(diameterMm: real, yieldLoad: real)
    ensures Torque(diameterMm, yieldLoad) == 0.15 * diameterMm * yieldLoad
  {
  }

  /** An unknown size or class is refused whatever the other inputs. */
  lemma UnknownSelection(b: Inputs)
    requires b.size !in Constants.BoltData || b.boltClass !in Constants.BoltClasses
    ensures Evaluate(b).metrics == ["Erro"] && Evaluate(b).stepCount == 0
    ensures Evaluate(b).calculated == map[]
  {
  }

  /** An empty record is one M12 bolt of class 8.8 under no load: a yield
      load of 53.952 kN, no rating, and a torque of 0.15 × 12 × 53.952 N·m. */
  lemma DefaultBolt()
    ensures Read(map[]) == Inputs("M12", "8.8", 1.0, 0.0)
    ensures var b := Inputs("M12", "8.8", 1.0, 0.0);
      Known(b) && GroupCapacity(b).yieldLoad == 53.952 &&
      Rate(LoadKn(b), GroupCapacity(b).totalYield).status == NotApplicable &&
      Torque(DiameterMm(b.size), GroupCapacity(b).yieldLoad) == 0.15 * 12.0 * 53.952
  {
    var b := Inputs("M12", "8.8", 1.0, 0.0);
    TableDiameters();
    assert Constants.SizeOrder[3] == "M12";
    TorquePerYieldLoad(12.0, 53.952);
  }
}

=== FILE: bracket.dfy ===
/** The wall bracket ("mão francesa") calculator
    (src/features/bracket/logic.ts): a right triangle of a vertical leg
    `height` and a horizontal leg `base`, braced by a diagonal profile of
    section `width` × `thickness` that carries `load` kg hung at the tip. */
module Bracket {
  import opened Numerics
  import opened Records
  import Constants

  /** Legs, profile width and thickness in mm, the density in kg/dm³, the
      load in kg and the safety factor. */
  datatype Dimensions = Dimensions(
    height: real, base: real, width: real, thickness: real, density: real,
    load: real, safetyFactor: real)

  /** A missing safety factor reads as 2; a zero one too, so the factor is
      never zero. */
  function Read(data: Data, material: string): (d: Dimensions)
    ensures d.density == Constants.Density(material)
    ensures "safetyFactor" !in data ==> d.safetyFactor == 2.0
    ensures d.safetyFactor != 0.0
    ensures "load" !in data ==> d.load == 0.0
  {
    Dimensions(
      NumberOr(data, "height", 0.0),
      NumberOr(data, "base", 0.0),
      NumberOr(data, "width", 0.0),
      NumberOr(data, "thickness", 0.0),
      Constants.Density(material),
      NumberOr(data, "load", 0.0),
      NumberOr(data, "safetyFactor", 2.0))
  }

  /** The yield strength assumed for the profile, in MPa (about A36 steel). */
  const YieldStrength: real := 250.0

  /** Standard gravity, converting kgf to N. */
  const Gravity: real := 9.81

  /** Both legs must be positive. */
  predicate Valid(d: Dimensions) {
    0.0 < d.height && 0.0 < d.base
  }

  /** Length of the diagonal, √(H² + B²). */
  function Diagonal(m: MathLib, d: Dimensions): real {
    Sqrt(m, Sq(d.height) + Sq(d.base))
  }

  /** The angle between base and diagonal. */
  function AngleRad(m: MathLib, d: Dimensions): real {
    Atan2(m, d.height, d.base)
  }

  function AngleDeg(m: MathLib, d: Dimensions): real {
    Degrees(AngleRad(m, d))
  }

  /** The angle between the vertical leg and the diagonal. */
  function TopAngleDeg(m: MathLib, d: Dimensions): real {
    90.0 - AngleDeg(m, d)
  }

  /** Force along the diagonal in kgf, load / sin θ. */
  function ForceKg(m: MathLib, d: Dimensions): real {
    Div(d.load, Sin(m, AngleRad(m, d)))
  }

  function ForceN(m: MathLib, d: Dimensions): real {
    ForceKg(m, d) * Gravity
  }

  /** Cross-section of the rectangular profile, mm². */
  function AreaMm2(d: Dimensions): real {
    d.width * d.thickness
  }

  /** Yield strength divided by the safety factor. */
  function Allowable(d: Dimensions): (a: real)
    ensures d.safetyFactor != 0.0 ==> a * d.safetyFactor == YieldStrength
  {
    Div(YieldStrength, d.safetyFactor)
  }

  /** The verdict shown as "Status de Segurança". */
  datatype Status = Danger | Safe | NotApplicable

  /** The structural check: stress in MPa, verdict and theoretical maximum
      load in kg. */
  datatype Check = Check(stress: real, status: Status, maxLoadKg: real)

  /** With a section, the stress is the force over the area and is compared
      with the allowable stress; the maximum load is the allowable force
      resolved back to a vertical load. Without a section nothing is
      computed. */
  function Analyse(m: MathLib, d: Dimensions): (c: Check)
    ensures AreaMm2(d) <= 0.0 <==> c.status == NotApplicable
    ensures 0.0 < AreaMm2(d) ==> c.stress * AreaMm2(d) == ForceN(m, d)
    ensures 0.0 < AreaMm2(d) ==> (c.status == Danger <==> c.stress > Allowable(d))
  {
    var area := AreaMm2(d);
    if 0.0 < area then
      var stress := ForceN(m, d) / area;
      var allowable := Allowable(d);
      Check(
        stress,
        if stress > allowable then Danger else Safe,
        allowable * area * Sin(m, AngleRad(m, d)) / Gravity)
    else
      Check(0.0, NotApplicable, 0.0)
  }

  /** The weight of the diagonal piece in kg. */
  function Weight(m: MathLib, d: Dimensions): real {
    Diagonal(m, d) * d.width * d.thickness * d.density / 1000000.0
  }

  /** The total profile length, both legs and the diagonal. */
  function TotalLength(m: MathLib, d: Dimensions): real {
    d.height + d.base + Diagonal(m, d)
  }

  const MetricLabels: seq<string> := [
    "Diagonal (Hipotenusa)", "Ângulo Base", "Ângulo Topo", "Comprimento Total",
    "Força na Diagonal", "Tensão Atuante", "Status de Segurança", "Carga Máx. Teórica",
    "Peso (Diagonal)"]

  const WarningKeys: seq<string> := ["height", "base", "width"]

  const PayloadKeys: seq<string> := ["height", "base", "width", "diagonal", "angleDeg", "topAngleDeg"]

  /** A missing leg gives the single warning metric, one step and the three
      inputs; otherwise nine metrics, five steps, and the diagonal and both
      angles alongside the inputs. */
  function Evaluate(m: MathLib, d: Dimensions): (r: CalcResult)
    ensures !Valid(d) ==>
      r.metrics == ["Aviso"] && r.stepCount == 1 && KeysAre(r.calculated, WarningKeys)
    ensures Valid(d) ==>
      r.metrics == MetricLabels && r.stepCount == 5 && KeysAre(r.calculated, PayloadKeys) &&
      r.calculated["diagonal"] == Num(Diagonal(m, d)) &&
      r.calculated["angleDeg"] == Num(AngleDeg(m, d)) &&
      r.calculated["topAngleDeg"] == Num(TopAngleDeg(m, d))
    ensures "height" in r.calculated && r.calculated["height"] == Num(d.height)
    ensures "base" in r.calculated && r.calculated["base"] == Num(d.base)
    ensures "width" in r.calculated && r.calculated["width"] == Num(d.width)
  {
    if !Valid(d) then
      CalcResult(["Aviso"], 1,
        map["height" := Num(d.height), "base" := Num(d.base), "width" := Num(d.width)])
    else
      CalcResult(MetricLabels, 5, map[
        "height" := Num(d.height), "base" := Num(d.base), "width" := Num(d.width),
        "diagonal" := Num(Diagonal(m, d)), "angleDeg" := Num(AngleDeg(m, d)),
        "topAngleDeg" := Num(TopAngleDeg(m, d))])
  }

  /** `calculateBracket`: the record read with its defaults, then
      evaluated; a missing leg gives the warning. */
  function Calculate(m: MathLib, data: Data, material: string): (r: CalcResult)
    ensures r == Evaluate(m, Read(data, material))
    ensures "height" !in data || "base" !in data ==> r.metrics == ["Aviso"]
  {
    Evaluate(m, Read(data, material))
  }

  /** The diagonal closes the right triangle of the two legs. */
  lemma DiagonalIsHypotenuse(m: MathLib, d: Dimensions)
    requires SqrtLaw(m)
    ensures var c := Diagonal(m, d);
      0.0 <= c && c * c == d.height * d.height + d.base * d.base
  {
  }

  /** The two cut angles are complementary, and the base angle in degrees
      converts back to atan2(H, B). */
  lemma AnglesComplementary(m: MathLib, d: Dimensions)
    ensures AngleDeg(m, d) + TopAngleDeg(m, d) == 90.0
    ensures Radians(AngleDeg(m, d)) == Atan2(m, d.height, d.base)
  {
  }

  /** Resolved vertically, the diagonal's force is the load again. */
  lemma ForceResolvesLoad(m: MathLib, d: Dimensions)
    requires FirstQuadrantSineLaw(m)
    requires Valid(d)
    ensures ForceKg(m, d) * Sin(m, AngleRad(m, d)) == d.load
    ensures ForceN(m, d) == Gravity * ForceKg(m, d)
  {
    assert 0.0 < Sin(m, Atan2(m, d.height, d.base));
  }

  /** The verdict is "safe" exactly when the load does not exceed the
      theoretical maximum load, and "danger" exactly when it does. */
  lemma SafeIffWithinMaxLoad(m: MathLib, d: Dimensions)
    requires FirstQuadrantSineLaw(m)
    requires Valid(d) && 0.0 < AreaMm2(d)
    ensures Analyse(m, d).status == Safe <==> d.load <= Analyse(m, d).maxLoadKg
    ensures Analyse(m, d).status == Danger <==> Analyse(m, d).maxLoadKg < d.load
  {
    var s := Sin(m, AngleRad(m, d));
    assert 0.0 < s by {
      assert 0.0 < Sin(m, Atan2(m, d.height, d.base));
    }
    var area := AreaMm2(d);
    var c := Analyse(m, d);
    var k := area * s / Gravity;
    assert 0.0 < k;
    var f := ForceKg(m, d);
    assert f * s == d.load;
    assert c.stress * area == f * Gravity;
    assert c.stress * k == d.load by {
      calc {
        c.stress * k;
        == c.stress * area * s / Gravity;
        == f * Gravity * s / Gravity;
        == f * s;
      }
    }
    assert Allowable(d) * k == c.maxLoadKg;
    ScaleCompare(c.stress, Allowable(d), k);
    assert c.status == Safe <==> c.stress <= Allowable(d);
  }

  /** A load of nothing is safe under any positive safety factor. */
  lemma NoLoadIsSafe(m: MathLib, d: Dimensions)
    requires 0.0 < AreaMm2(d) && 0.0 < d.safetyFactor && d.load == 0.0
    ensures Analyse(m, d).stress == 0.0 && Analyse(m, d).status == Safe
  {
    assert ForceKg(m, d) == 0.0;
    assert 0.0 < Allowable(d) by {
      assert Allowable(d) * d.safetyFactor == YieldStrength;
      if Allowable(d) <= 0.0 {
        ScaleCompare(Allowable(d), 0.0, d.safetyFactor);
      }
    }
  }

  /** Without a section nothing is computed: zero stress and no maximum. */
  lemma NoSection(m: MathLib, d: Dimensions)
    requires AreaMm2(d) <= 0.0
    ensures Analyse(m, d) == Check(0.0, NotApplicable, 0.0)
  {
  }

  /** The weight is the diagonal's volume times the density. */
  lemma DiagonalWeight(m: MathLib, d: Dimensions)
    ensures Weight(m, d) * 1000000.0 == Diagonal(m, d) * AreaMm2(d) * d.density
    ensures d.thickness == 0.0 ==> Weight(m, d) == 0.0
  {
  }

  lemma EmptyRecord(material: string)
    ensures Read(map[], material) == Dimensions(0.0, 0.0, 0.0, 0.0, Constants.Density(material), 0.0, 2.0)
  {
  }
}

=== FILE: cone.dfy ===
/** The cone / frustum calculator (src/features/cone/logic.ts): the flat
    pattern of a frustum is an annular sector whose radii follow from similar
    triangles. */
module Cone {
  import opened Numerics
  import opened Records
  import Constants

  /** Larger and smaller diameter, vertical height and plate thickness in mm,
      and the material's density in kg/dm³. */
  datatype Dimensions = Dimensions(d1: real, d2: real, height: real, thickness: real, density: real)

  function Read(data: Data, material: string): (d: Dimensions)
    ensures d.density == Constants.Density(material)
  {
    Dimensions(
      NumberOr(data, "d1", 0.0),
      NumberOr(data, "d2", 0.0),
      NumberOr(data, "height", 0.0),
      NumberOr(data, "thickness", 0.0),
      Constants.Density(material))
  }

  /** Section radii R = d1/2 and r = d2/2. */
  function BigRadius(d: Dimensions): real { d.d1 / 2.0 }
  function SmallRadius(d: Dimensions): real { d.d2 / 2.0 }

  /** The slant height g = √(H² + (R − r)²). */
  function Generatrix(m: MathLib, d: Dimensions): real {
    Sqrt(m, Sq(d.height) + Sq(BigRadius(d) - SmallRadius(d)))
  }

  /** Below this difference of radii the part is treated as a cylinder and no
      development is computed. */
  const DegenerateTolerance: real := 0.01

  predicate Degenerate(d: Dimensions) {
    Abs(BigRadius(d) - SmallRadius(d)) < DegenerateTolerance
  }

  /** Outer and inner development radius and the sector's sweep in degrees. */
  datatype Development = Development(outerRadius: real, innerRadius: real, theta: real)

  /** `R_dev = R·g/(R − r)`, `r_dev = R_dev − g`, `theta = 360·R/R_dev`; all
      three stay 0 for a degenerate cone. */
  function Develop(m: MathLib, d: Dimensions): Development {
    if Degenerate(d) then
      Development(0.0, 0.0, 0.0)
    else
      var R := BigRadius(d);
      var g := Generatrix(m, d);
      var outer := R * g / (R - SmallRadius(d));
      Development(outer, outer - g, Div(360.0 * R, outer))
  }

  /** Lateral surface π(R + r)·g in mm². */
  function LateralAreaMm2(m: MathLib, d: Dimensions): real {
    PiTimes(BigRadius(d) + SmallRadius(d)) * Generatrix(m, d)
  }

  function AreaM2(m: MathLib, d: Dimensions): real {
    LateralAreaMm2(m, d) / 1000000.0
  }

  function Weight(m: MathLib, d: Dimensions): real {
    LateralAreaMm2(m, d) * d.thickness * d.density / 1000000.0
  }

  /** Frustum capacity in litres. */
  function VolumeLiters(d: Dimensions): real {
    var R := BigRadius(d);
    var r := SmallRadius(d);
    (1.0 / 3.0) * PiTimes(d.height) * (Sq(R) + Sq(r) + R * r) / 1000000.0
  }

  const MetricLabels: seq<string> := [
    "Geratriz (g)", "Raio Maior (R)", "Raio Menor (r)", "Ângulo de Abertura",
    "Área Lateral", "Volume Interno", "Peso Estimado"]

  /** The result for dimensions already read: there is no input guard, the
      payload is the development, and a degenerate cone has a zero one. */
  function Evaluate(m: MathLib, d: Dimensions): (r: CalcResult)
    ensures r.metrics == MetricLabels && r.stepCount == 5
    ensures KeysAre(r.calculated, ["R_dev", "r_dev", "theta"])
    ensures r.calculated["R_dev"] == Num(Develop(m, d).outerRadius)
    ensures r.calculated["r_dev"] == Num(Develop(m, d).innerRadius)
    ensures r.calculated["theta"] == Num(Develop(m, d).theta)
    ensures Degenerate(d) ==>
      r.calculated["R_dev"] == r.calculated["r_dev"] == r.calculated["theta"] == Num(0.0)
  {
    var dev := Develop(m, d);
    CalcResult(MetricLabels, 5,
      map["R_dev" := Num(dev.outerRadius), "r_dev" := Num(dev.innerRadius), "theta" := Num(dev.theta)])
  }

  /** `calculateCone`: the record read with its defaults, then evaluated;
      a record giving neither diameter develops nothing. */
  function Calculate(m: MathLib, data: Data, material: string): (r: CalcResult)
    ensures r == Evaluate(m, Read(data, material))
    ensures "d1" !in data && "d2" !in data ==> r.calculated["theta"] == Num(0.0)
  {
    Evaluate(m, Read(data, material))
  }

  /** The generatrix is the hypotenuse over the height and the difference of
      the radii. */
  lemma GeneratrixIsSlant(m: MathLib, d: Dimensions)
    requires SqrtLaw(m)
    ensures var g := Generatrix(m, d);
      0.0 <= g && g * g == Sq(d.height) + Sq(BigRadius(d) - SmallRadius(d))
  {
  }

  /** Outside the degenerate case the two development radii differ by the
      generatrix and keep the ratio of the section radii. */
  lemma SimilarTriangles(m: MathLib, d: Dimensions)
    requires !Degenerate(d)
    ensures var dev := Develop(m, d);
      dev.outerRadius - dev.innerRadius == Generatrix(m, d) &&
      dev.innerRadius * BigRadius(d) == dev.outerRadius * SmallRadius(d)
  {
    var R, r, g := BigRadius(d), SmallRadius(d), Generatrix(m, d);
    var outer := R * g / (R - r);
    assert outer * (R - r) == R * g;
    calc {
      (outer - g) * R;
      outer * R - g * R;
      outer * R - outer * (R - r);
      outer * r;
    }
  }

  /** Outside the degenerate case and for a non-zero larger radius, the
      sector's arc equals the larger circumference: θ·R_dev = 360·R, which is
      the same as θ·g = 360·(R − r). */
  lemma SweepAngle(m: MathLib, d: Dimensions)
    requires SqrtLaw(m)
    requires !Degenerate(d) && BigRadius(d) != 0.0
    ensures var dev := Develop(m, d);
      dev.theta * dev.outerRadius == 360.0 * BigRadius(d) &&
      dev.theta * Generatrix(m, d) == 360.0 * (BigRadius(d) - SmallRadius(d))
  {
    var R, r, g := BigRadius(d), SmallRadius(d), Generatrix(m, d);
    var dr := R - r;
    assert dr != 0.0;
    assert Sq(dr) > 0.0;
    GeneratrixIsSlant(m, d);
    assert g * g >= Sq(dr);
    assert g != 0.0;
    var outer := R * g / dr;
    assert outer * dr == R * g;
    assert R * g != 0.0;
    assert outer != 0.0;
    var theta := Develop(m, d).theta;
    assert theta == Div(360.0 * R, outer);
    assert theta * outer == 360.0 * R;
    calc {
      theta * g * R;
      theta * (R * g);
      theta * (outer * dr);
      (theta * outer) * dr;
      360.0 * R * dr;
    }
    assert (theta * g - 360.0 * dr) * R == 0.0;
  }

  /** The lateral area is π(R + r)·g and the weight is that area times the
      thickness and the density; no thickness means no weight. */
  lemma LateralSurface(m: MathLib, d: Dimensions)
    ensures AreaM2(m, d) * 1000000.0 == Pi * (BigRadius(d) + SmallRadius(d)) * Generatrix(m, d)
    ensures Weight(m, d) == AreaM2(m, d) * d.thickness * d.density
    ensures d.thickness == 0.0 ==> Weight(m, d) == 0.0
  {
  }

  /** The capacity is the frustum volume πH(R² + r² + Rr)/3, which for equal
      radii is the cylinder πR²H. */
  lemma FrustumVolume(d: Dimensions)
    ensures var R, r := BigRadius(d), SmallRadius(d);
      VolumeLiters(d) * 1000000.0 == Pi * d.height * (R * R + r * r + R * r) / 3.0
    ensures var R := BigRadius(d);
      d.d1 == d.d2 ==> VolumeLiters(d) * 1000000.0 == Pi * R * R * d.height
  {
  }

  /** An empty record reads as zero dimensions: a degenerate cone. */
  lemma EmptyRecord(material: string)
    ensures Read(map[], material) == Dimensions(0.0, 0.0, 0.0, 0.0, Constants.Density(material))
    ensures Degenerate(Read(map[], material))
  {
  }
}

=== FILE: constants.dfy ===
/** The read-only lookup tables of src/utils/constants.ts. */
module Constants {

  /** The density every calculator falls back to for a material it does not
      know (`DENSITIES[material] || 7.85`), in kg/dm³. */
  const FallbackDensity: real := 7.85

  /** `DENSITIES`: material key to density in kg/dm³. */
  const Densities: map<string, real> := map[
    "steel" := 7.85,
    "galvanized" := 7.85,
    "stainless" := 7.90,
    "aluminum" := 2.70,
    "copper" := 8.96,
    "brass" := 8.73,
    "bronze" := 8.80,
    "cast_iron" := 7.20,
    "nylon" := 1.15
  ]

  /** `DENSITIES[material] || 7.85`. */
  function Density(material: string): (rho: real)
    ensures 0.0 < rho
    ensures material in Densities ==> rho == Densities[material]
    ensures material !in Densities ==> rho == FallbackDensity
  {
    if material in Densities && Densities[material] != 0.0 then Densities[material] else FallbackDensity
  }

  /** Every listed material has a strictly positive density. */
  lemma DensitiesPositive()
    ensures forall k :: k in Densities ==> 0.0 < Densities[k]
  {
  }

  /** Plain and galvanized steel share the density that also stands in for an
      unknown material. */
  lemma SteelIsTheFallback()
    ensures Density("steel") == Density("galvanized") == FallbackDensity
    ensures forall k :: k !in Densities ==> Density(k) == Density("steel")
  {
  }

  /** Thread pitch and stress area (mm²) of one metric coarse size. */
  datatype BoltSize = BoltSize(pitch: real, area: real)

  /** `BOLT_DATA`. */
  const BoltData: map<string, BoltSize> := map[
    "M6" := BoltSize(1.0, 20.1),
    "M8" := BoltSize(1.25, 36.6),
    "M10" := BoltSize(1.5, 58.0),
    "M12" := BoltSize(1.75, 84.3),
    "M16" := BoltSize(2.0, 157.0),
    "M20" := BoltSize(2.5, 245.0),
    "M24" := BoltSize(3.0, 353.0),
    "M30" := BoltSize(3.5, 561.0),
    "M36" := BoltSize(4.0, 817.0)
  ]

  /** The sizes of `BOLT_DATA` from the smallest nominal diameter up. */
  const SizeOrder: seq<string> := ["M6", "M8", "M10", "M12", "M16", "M20", "M24", "M30", "M36"]

  /** Yield and tensile stress (MPa) of one strength class. */
  datatype BoltClass = BoltClass(yieldStress: real, tensileStress: real)

  /** `BOLT_CLASSES`. */
  const BoltClasses: map<string, BoltClass> := map[
    "4.6" := BoltClass(240.0, 400.0),
    "5.8" := BoltClass(400.0, 500.0),
    "8.8" := BoltClass(640.0, 800.0),
    "10.9" := BoltClass(900.0, 1000.0),
    "12.9" := BoltClass(1100.0, 1200.0)
  ]

  /** The classes of `BOLT_CLASSES` from the weakest up. */
  const ClassOrder: seq<string> := ["4.6", "5.8", "8.8", "10.9", "12.9"]

  /** `SizeOrder` lists exactly the sizes of the table, and along it both the
      thread pitch and the stress area strictly increase. */
  lemma SizesAscend()
    ensures forall i :: 0 <= i < |SizeOrder| ==> SizeOrder[i] in BoltData
    ensures forall k :: k in BoltData ==> k in SizeOrder
    ensures forall i, j :: 0 <= i < j < |SizeOrder| ==>
      BoltData[SizeOrder[i]].pitch < BoltData[SizeOrder[j]].pitch &&
      BoltData[SizeOrder[i]].area < BoltData[SizeOrder[j]].area
  {
  }

  /** Every size has a positive pitch and stress area. */
  lemma SizesPositive()
    ensures forall k :: k in BoltData ==> 0.0 < BoltData[k].pitch && 0.0 < BoltData[k].area
  {
  }

  /** Every class breaks no earlier than it yields, and both stresses are
      positive. */
  lemma TensileAtLeastYield()
    ensures forall k :: k in BoltClasses ==>
      0.0 < BoltClasses[k].yieldStress <= BoltClasses[k].tensileStress
  {
  }

  /** `ClassOrder` lists exactly the classes of the table, and along it the
      yield stress strictly increases. */
  lemma ClassesAscend()
    ensures forall i :: 0 <= i < |ClassOrder| ==> ClassOrder[i] in BoltClasses
    ensures forall k :: k in BoltClasses ==> k in ClassOrder
    ensures forall i, j :: 0 <= i < j < |ClassOrder| ==>
      BoltClasses[ClassOrder[i]].yieldStress < BoltClasses[ClassOrder[j]].yieldStress
  {
  }
}

=== FILE: cylinder.dfy ===
/** The rolled-cylinder calculator (src/features/cylinder/logic.ts). Each
    figure the calculator derives is a function of the dimensions read from
    the record. */
module Cylinder {
  import opened Numerics
  import opened Records
  import Constants

  /** Internal diameter, height and wall thickness in mm, and the material's
      density in kg/dm³. */
  datatype Dimensions = Dimensions(diameter: real, height: real, thickness: real, density: real)

  function Read(data: Data, material: string): (d: Dimensions)
    ensures d.density == Constants.Density(material)
  {
    Dimensions(
      NumberOr(data, "diameter", 0.0),
      NumberOr(data, "height", 0.0),
      NumberOr(data, "thickness", 0.0),
      Constants.Density(material))
  }

  function MeanDiameter(d: Dimensions): real {
    d.diameter + d.thickness
  }

  function ExternalDiameter(d: Dimensions): real {
    d.diameter + 2.0 * d.thickness
  }

  /** The width of the blank: the circumference of the mean diameter. */
  function Circumference(d: Dimensions): real {
    PiTimes(MeanDiameter(d))
  }

  /** Material mass in kg: blank area times thickness times density. */
  function Weight(d: Dimensions): real {
    Circumference(d) * d.height * d.thickness * d.density / 1000000.0
  }

  /** Capacity in litres. */
  function InternalLiters(d: Dimensions): real {
    PiTimes(Sq(d.diameter / 2.0)) * d.height / 1000000.0
  }

  /** External surface in m²: lateral surface plus two end caps. */
  function TotalAreaM2(d: Dimensions): real {
    var extRadius := ExternalDiameter(d) / 2.0;
    var lateralArea := 2.0 * PiTimes(extRadius) * d.height;
    var baseArea := PiTimes(Sq(extRadius));
    (lateralArea + 2.0 * baseArea) / 1000000.0
  }

  const MetricLabels: seq<string> := [
    "Dimensões da Chapa", "Diâmetro Médio", "Diâmetro Externo", "Perímetro de Corte (L)",
    "Peso Estimado", "Volume Interno", "Área Superficial"]

  /** The result for dimensions already read. There is no input guard:
      whatever the dimensions, all seven metrics and five steps are produced,
      and the drawing payload is the blank's width and height. */
  function Evaluate(d: Dimensions): (r: CalcResult)
    ensures r.metrics == MetricLabels && r.stepCount == 5
    ensures KeysAre(r.calculated, ["width", "height"])
    ensures r.calculated["height"] == Num(d.height)
  {
    CalcResult(MetricLabels, 5, map["width" := Num(Circumference(d)), "height" := Num(d.height)])
  }

  /** `calculateCylinder`: the record read with its defaults, then
      evaluated; the blank's height is the record's height. */
  function Calculate(data: Data, material: string): (r: CalcResult)
    ensures r == Evaluate(Read(data, material))
    ensures r.calculated["height"] == Num(NumberOr(data, "height", 0.0))
  {
    Evaluate(Read(data, material))
  }

  /** The blank's width in the drawing payload is the circumference of the
      mean diameter, π·(D + t). */
  lemma BlankWidth(d: Dimensions)
    ensures Evaluate(d).calculated["width"] == Num(Pi * (d.diameter + d.thickness))
  {
  }

  /** External, mean and internal diameter are spaced one wall thickness apart. */
  lemma DiameterLadder(d: Dimensions)
    ensures ExternalDiameter(d) - MeanDiameter(d) == d.thickness
    ensures MeanDiameter(d) - d.diameter == d.thickness
  {
  }

  /** The weight is the developed blank (width × height) times thickness times
      density, in kg; it vanishes with the thickness and scales linearly with
      the density. */
  lemma WeightOfBlank(d: Dimensions, k: real)
    ensures Weight(d) == Pi * (d.diameter + d.thickness) * d.height * d.thickness * d.density / 1000000.0
    ensures d.thickness == 0.0 ==> Weight(d) == 0.0
    ensures Weight(d.(density := k * d.density)) == k * Weight(d)
  {
  }

  /** The capacity in litres is π(D/2)²H / 10⁶ and does not depend on the wall
      thickness. */
  lemma CapacityIgnoresWall(d: Dimensions, t: real)
    ensures InternalLiters(d) == Pi * (d.diameter / 2.0) * (d.diameter / 2.0) * d.height / 1000000.0
    ensures InternalLiters(d.(thickness := t)) == InternalLiters(d)
  {
  }

  /** The external surface is the outer lateral surface plus both end caps,
      taken on the external radius (D + 2t)/2. */
  lemma ExternalSurface(d: Dimensions)
    ensures var rExt := (d.diameter + 2.0 * d.thickness) / 2.0;
      TotalAreaM2(d) * 1000000.0 == 2.0 * Pi * rExt * d.height + 2.0 * Pi * rExt * rExt
  {
  }

  /** An empty record is not rejected: it reads as zero dimensions with the
      material's density, and zero dimensions yield a payload of zeros. */
  lemma EmptyRecord(material: string, density: real)
    ensures Read(map[], material) == Dimensions(0.0, 0.0, 0.0, Constants.Density(material))
    ensures Evaluate(Dimensions(0.0, 0.0, 0.0, density)).calculated["width"] == Num(0.0)
  {
  }
}

=== FILE: elbow.dfy ===
/** The segmented elbow ("gomos") calculator (src/features/elbow/logic.ts):
    a bend of `angle` degrees on centre-line radius `radius` built from
    `segments` mitred pipe pieces. */
module Elbow {
  import opened Numerics
  import opened Records
  import Constants

  /** Pipe diameter, bend radius and thickness in mm, the number of segments,
      the total bend in degrees, and the density in kg/dm³. */
  datatype Dimensions = Dimensions(
    diameter: real, radius: real, segments: real, angle: real, thickness: real, density: real)

  /** Missing segments read as 3 and a missing bend as 90°. */
  function Read(data: Data, material: string): (d: Dimensions)
    ensures d.density == Constants.Density(material)
    ensures "segments" !in data ==> d.segments == 3.0
    ensures "angle" !in data ==> d.angle == 90.0
  {
    Dimensions(
      NumberOr(data, "diameter", 0.0),
      NumberOr(data, "radius", 0.0),
      NumberOr(data, "segments", 3.0),
      NumberOr(data, "angle", 90.0),
      NumberOr(data, "thickness", 0.0),
      Constants.Density(material))
  }

  /** The only guard: an elbow needs at least two segments (one joint). */
  predicate Valid(d: Dimensions) {
    2.0 <= d.segments
  }

  /** The bend taken by each of the `segments − 1` joints. */
  function JointAngle(d: Dimensions): real
    requires Valid(d)
  {
    d.angle / (d.segments - 1.0)
  }

  /** Each joint is cut symmetrically: half the joint angle on either piece. */
  function CutAngle(d: Dimensions): real
    requires Valid(d)
  {
    JointAngle(d) / 2.0
  }

  /** Heights of a middle segment at its outer (long) and inner (short) side,
      from its centre line (`half`) and over the whole piece (`full`). */
  datatype Cuts = Cuts(longHalf: real, shortHalf: real, longFull: real, shortFull: real)

  function SegmentCuts(m: MathLib, d: Dimensions): Cuts
    requires Valid(d)
  {
    var tanAlpha := Tan(m, Radians(CutAngle(d)));
    var longHalf := (d.radius + d.diameter / 2.0) * tanAlpha;
    var shortHalf := (d.radius - d.diameter / 2.0) * tanAlpha;
    Cuts(longHalf, shortHalf, longHalf * 2.0, shortHalf * 2.0)
  }

  /** Centre-line length of the bend, π·radius·angle/180. */
  function ArcLength(d: Dimensions): real {
    PiTimes(d.radius) * d.angle / 180.0
  }

  function PipeCircumference(d: Dimensions): real {
    PiTimes(d.diameter)
  }

  function AreaMm2(d: Dimensions): real {
    PipeCircumference(d) * ArcLength(d)
  }

  function Weight(d: Dimensions): real {
    AreaMm2(d) * d.thickness * d.density / 1000000.0
  }

  function VolumeLiters(d: Dimensions): real {
    PiTimes(Sq(d.diameter / 2.0)) * ArcLength(d) / 1000000.0
  }

  const MetricLabels: seq<string> := [
    "Raio da Curva", "Ângulo Total", "Número de Gomos", "Ângulo por Segmento",
    "Ângulo de Corte", "Comprimento de Corte", "Comprimento Total (Arco)",
    "Altura Maior (Gomo)", "Altura Menor (Gomo)", "Área Superficial",
    "Volume Interno", "Peso Estimado"]

  const EchoKeys: seq<string> := ["diameter", "radius", "segments", "angle"]

  const PayloadKeys: seq<string> := [
    "diameter", "radius", "segments", "angle", "cutAngle", "h_long_half", "h_short_half",
    "h_long_full", "h_short_full", "pipeCircumference"]

  /** The refusal for fewer than two segments: the error metric, one step,
      and the four inputs handed back. */
  function Refusal(d: Dimensions): (r: CalcResult)
    ensures r.metrics == ["Erro"] && r.stepCount == 1 && KeysAre(r.calculated, EchoKeys)
    ensures r.calculated["diameter"] == Num(d.diameter) && r.calculated["radius"] == Num(d.radius)
    ensures r.calculated["segments"] == Num(d.segments) && r.calculated["angle"] == Num(d.angle)
  {
    CalcResult(["Erro"], 1, map[
      "diameter" := Num(d.diameter), "radius" := Num(d.radius),
      "segments" := Num(d.segments), "angle" := Num(d.angle)])
  }

  /** The full result around the computed cut angle, segment heights and
      circumference. */
  function Assemble(d: Dimensions, cutAngle: real, c: Cuts, circumference: real): (r: CalcResult)
    ensures r.metrics == MetricLabels && r.stepCount == 5
    ensures "diameter" in r.calculated && r.calculated["diameter"] == Num(d.diameter)
    ensures "radius" in r.calculated && r.calculated["radius"] == Num(d.radius)
    ensures "segments" in r.calculated && r.calculated["segments"] == Num(d.segments)
    ensures "angle" in r.calculated && r.calculated["angle"] == Num(d.angle)
    ensures "cutAngle" in r.calculated && r.calculated["cutAngle"] == Num(cutAngle)
    ensures "h_long_half" in r.calculated && r.calculated["h_long_half"] == Num(c.longHalf)
    ensures "h_short_half" in r.calculated && r.calculated["h_short_half"] == Num(c.shortHalf)
    ensures "h_long_full" in r.calculated && r.calculated["h_long_full"] == Num(c.longFull)
    ensures "h_short_full" in r.calculated && r.calculated["h_short_full"] == Num(c.shortFull)
    ensures "pipeCircumference" in r.calculated &&
      r.calculated["pipeCircumference"] == Num(circumference)
  {
    CalcResult(MetricLabels, 5, map[
      "diameter" := Num(d.diameter), "radius" := Num(d.radius),
      "segments" := Num(d.segments), "angle" := Num(d.angle),
      "cutAngle" := Num(cutAngle),
      "h_long_half" := Num(c.longHalf), "h_short_half" := Num(c.shortHalf),
      "h_long_full" := Num(c.longFull), "h_short_full" := Num(c.shortFull),
      "pipeCircumference" := Num(circumference)])
  }

  /** The full payload holds exactly the ten documented keys. */
  lemma AssembleKeys(d: Dimensions, cutAngle: real, c: Cuts, circumference: real)
    ensures KeysAre(Assemble(d, cutAngle, c, circumference).calculated, PayloadKeys)
  {
    var payload := Assemble(d, cutAngle, c, circumference).calculated;
    forall k
      ensures k in payload <==> k in PayloadKeys
    {
      if k in PayloadKeys {
        var i :| 0 <= i < |PayloadKeys| && PayloadKeys[i] == k;
        assert k in payload;
      }
    }
  }

  /** Fewer than two segments give the single error metric, one step and the
      four inputs back; otherwise all twelve metrics, five steps and the
      ten-value payload. Either way the inputs are echoed unchanged. */
  function Evaluate(m: MathLib, d: Dimensions): (r: CalcResult)
    ensures !Valid(d) ==>
      r.metrics == ["Erro"] && r.stepCount == 1 && KeysAre(r.calculated, EchoKeys)
    ensures Valid(d) ==>
      r.metrics == MetricLabels && r.stepCount == 5 && KeysAre(r.calculated, PayloadKeys) &&
      r.calculated["cutAngle"] == Num(CutAngle(d))
    ensures "diameter" in r.calculated && r.calculated["diameter"] == Num(d.diameter)
    ensures "radius" in r.calculated && r.calculated["radius"] == Num(d.radius)
    ensures "segments" in r.calculated && r.calculated["segments"] == Num(d.segments)
    ensures "angle" in r.calculated && r.calculated["angle"] == Num(d.angle)
  {
    if !Valid(d) then Refusal(d)
    else
      AssembleKeys(d, CutAngle(d), SegmentCuts(m, d), PipeCircumference(d));
      Assemble(d, CutAngle(d), SegmentCuts(m, d), PipeCircumference(d))
  }

  /** `calculateElbow`: the record read with its defaults, then evaluated;
      without a segment count the default three segments are accepted. */
  function Calculate(m: MathLib, data: Data, material: string): (r: CalcResult)
    ensures r == Evaluate(m, Read(data, material))
    ensures "segments" !in data ==> r.metrics == MetricLabels
  {
    Evaluate(m, Read(data, material))
  }

  /** The joints together make up the whole bend, and each joint is two cuts. */
  lemma JointsSpanTheBend(d: Dimensions)
    requires Valid(d)
    ensures JointAngle(d) * (d.segments - 1.0) == d.angle
    ensures 2.0 * CutAngle(d) * (d.segments - 1.0) == d.angle
  {
  }

  /** The long and short sides of a segment differ by the pipe diameter times
      the tangent of the cut, average to the centre-line height, and the full
      piece is twice the half; a bend radius of D/2 leaves no short side. */
  lemma CutHeights(m: MathLib, d: Dimensions)
    requires Valid(d)
    ensures var c, t := SegmentCuts(m, d), Tan(m, Radians(CutAngle(d)));
      c.longHalf - c.shortHalf == d.diameter * t &&
      c.longHalf + c.shortHalf == 2.0 * d.radius * t &&
      c.longFull == 2.0 * c.longHalf && c.shortFull == 2.0 * c.shortHalf
    ensures d.radius == d.diameter / 2.0 ==> SegmentCuts(m, d).shortHalf == 0.0
  {
    var t := Tan(m, Radians(CutAngle(d)));
    var c := SegmentCuts(m, d);
    assert c.shortHalf == (d.radius - d.diameter / 2.0) * t;
    assert c.longHalf == (d.radius + d.diameter / 2.0) * t;
  }

  /** A valid elbow reports the segment heights of `SegmentCuts` and the
      pipe's circumference, so `CutHeights` holds of the payload: the full
      heights are twice the half ones. */
  lemma ReportedCutHeights(m: MathLib, d: Dimensions)
    requires Valid(d)
    ensures var c, p := SegmentCuts(m, d), Evaluate(m, d).calculated;
      p["h_long_half"] == Num(c.longHalf) && p["h_short_half"] == Num(c.shortHalf) &&
      p["h_long_full"] == Num(c.longFull) && p["h_short_full"] == Num(c.shortFull) &&
      p["pipeCircumference"] == Num(PipeCircumference(d))
    ensures var p := Evaluate(m, d).calculated;
      p["h_long_full"].x == 2.0 * p["h_long_half"].x &&
      p["h_short_full"].x == 2.0 * p["h_short_half"].x
  {
    assert Evaluate(m, d) == Assemble(d, CutAngle(d), SegmentCuts(m, d), PipeCircumference(d));
    CutHeights(m, d);
  }

  /** The arc length is the bend radius times the bend in radians; the
      surface is the pipe's circumference and the capacity its cross-section,
      both swept along that arc. */
  lemma SweptAlongTheArc(d: Dimensions)
    ensures ArcLength(d) == d.radius * Radians(d.angle)
    ensures AreaMm2(d) == Pi * d.diameter * ArcLength(d)
    ensures VolumeLiters(d) * 1000000.0 == Pi * (d.diameter / 2.0) * (d.diameter / 2.0) * ArcLength(d)
    ensures Weight(d) * 1000000.0 == AreaMm2(d) * d.thickness * d.density
  {
  }

  /** An empty record is the default elbow: three segments through 90°, so
      two joints of 45° cut at 22.5°. */
  lemma DefaultElbow(material: string)
    ensures var d := Read(map[], material);
      Valid(d) && d.segments == 3.0 && d.angle == 90.0 &&
      JointAngle(d) == 45.0 && CutAngle(d) == 22.5
  {
  }

  /** Since an unset or zero segment count reads as 3, a record is refused
      only when it sets the count explicitly to a non-zero number below 2. */
  lemma RefusedOnlyForExplicitCount(data: Data, material: string)
    requires !Valid(Read(data, material))
    ensures "segments" in data && data["segments"].NumField?
    ensures data["segments"].n != 0.0 && data["segments"].n < 2.0
  {
  }

  /** A single segment is refused however the other fields are set. */
  lemma OneSegmentIsAnError(m: MathLib, d: Dimensions)
    requires d.segments == 1.0
    ensures Evaluate(m, d).metrics == ["Erro"]
  {
  }
}

=== FILE: numerics.dfy ===
/** Real-number stand-ins for the parts of JavaScript's `Math` object that the
    calculators use.

    Numbers are exact reals: IEEE-754 rounding, NaN and the infinities are not
    modelled. The transcendental functions are not computable over the reals,
    so they are carried as an uninterpreted `MathLib` value that every
    calculator receives; the few facts about them that a property needs are
    stated as the ghost predicates below and appear only as preconditions of
    lemmas, never of the calculators themselves. */
module Numerics {

  /** The value of `Math.PI`. */
  const Pi: real := 3.141592653589793

  /** `x * Math.PI`, written with the literal so that the product stays
      linear for the solver. */
  function PiTimes(x: real): (p: real)
    ensures p == x * Pi
  {
    3.141592653589793 * x
  }

  /** `Math.sqrt`, `Math.sin`, `Math.cos`, `Math.tan`, `Math.asin` and
      `Math.atan2`, left uninterpreted. */
  datatype MathLib = MathLib(
    sqrt: real -> real,
    sin: real -> real,
    cos: real -> real,
    tan: real -> real,
    asin: real -> real,
    atan2: (real, real) -> real)

  /** Applications of the library's functions, as plain functions of the
      library value. */
  function Sqrt(m: MathLib, x: real): real { m.sqrt(x) }
  function Sin(m: MathLib, x: real): real { m.sin(x) }
  function Cos(m: MathLib, x: real): real { m.cos(x) }
  function Tan(m: MathLib, x: real): real { m.tan(x) }
  function Asin(m: MathLib, x: real): real { m.asin(x) }
  function Atan2(m: MathLib, y: real, x: real): real { m.atan2(y, x) }

  /** The square root of a non-negative number is the non-negative number whose
      square it is. */
  ghost predicate SqrtLaw(m: MathLib) {
    forall x: real :: 0.0 <= x ==> 0.0 <= Sqrt(m, x) && Sqrt(m, x) * Sqrt(m, x) == x
  }

  /** A direction strictly inside the first quadrant has a positive sine. */
  ghost predicate FirstQuadrantSineLaw(m: MathLib) {
    forall y: real, x: real :: 0.0 < y && 0.0 < x ==> 0.0 < Sin(m, Atan2(m, y, x))
  }

  /** The arcsine of a number in [−1, 1] lies in [−π/2, π/2]. */
  ghost predicate AsinRangeLaw(m: MathLib) {
    forall x: real :: -1.0 <= x <= 1.0 ==> -Pi / 2.0 <= Asin(m, x) <= Pi / 2.0
  }

  /** The cosine of the arcsine of a number in [−1, 1] is √(1 − x²). */
  ghost predicate CosAsinLaw(m: MathLib) {
    forall x: real :: -1.0 <= x <= 1.0 ==> Cos(m, Asin(m, x)) == Sqrt(m, 1.0 - x * x)
  }

  /** The law's instance at one point. */
  lemma CosOfAsin(m: MathLib, x: real)
    requires CosAsinLaw(m)
    requires -1.0 <= x <= 1.0
    ensures Cos(m, Asin(m, x)) == Sqrt(m, 1.0 - x * x)
  {
  }

  /** Supplementary angles have opposite cosines. */
  ghost predicate SupplementLaw(m: MathLib) {
    forall x: real, y: real :: x + y == Pi ==> Cos(m, x) == -Cos(m, y)
  }

  /** `Math.pow(x, 2)`. */
  function Sq(x: real): (s: real)
    ensures 0.0 <= s
  {
    x * x
  }

  /** `Math.abs`. */
  function Abs(x: real): (a: real)
    ensures 0.0 <= a && (a == x || a == -x)
  {
    if x < 0.0 then -x else x
  }

  /** Division whose divisor can be zero in exact arithmetic. JavaScript yields
      NaN or an infinity there; the model yields 0, and where the divisor is
      non-zero it is ordinary division. */
  function Div(a: real, b: real): (q: real)
    ensures b != 0.0 ==> q * b == a
    ensures b == 0.0 ==> q == 0.0
  {
    if b == 0.0 then 0.0 else a / b
  }

  /** `Math.round`: the nearest integer, halves rounded up. */
  function Round(x: real): (n: int)
    ensures n as real - 0.5 <= x < n as real + 0.5
  {
    (x + 0.5).Floor
  }

  /** `Math.min(hi, Math.max(lo, x))`. */
  function Clamp(lo: real, hi: real, x: real): (c: real)
    requires lo <= hi
    ensures lo <= c <= hi
    ensures lo <= x <= hi ==> c == x
  {
    if x < lo then lo else if hi < x then hi else x
  }

  /** Degrees to radians, as the calculators write it: `deg * Math.PI / 180`. */
  function Radians(deg: real): real {
    PiTimes(deg) / 180.0
  }

  /** Radians to degrees: `rad * 180 / Math.PI`. */
  function Degrees(rad: real): (deg: real)
    ensures Radians(deg) == rad
  {
    rad * 180.0 / 3.141592653589793
  }

  /** Under the square-root law, the root of a square is the non-negative
      number squared. */
  lemma SqrtOfSquare(m: MathLib, x: real, y: real)
    requires SqrtLaw(m)
    requires 0.0 <= y && x == y * y
    ensures Sqrt(m, x) == y
  {
    var s := Sqrt(m, x);
    assert 0.0 <= s && s * s == y * y;
    if s < y {
      calc { s * s; <= s * y; < y * y; }
    } else if y < s {
      calc { y * y; <= y * s; < s * s; }
    }
  }

  /** Two non-negative numbers with the same square are equal. */
  lemma SameRoot(x: real, y: real)
    requires 0.0 <= x && 0.0 <= y && x * x == y * y
    ensures x == y
  {
    if x < y {
      calc { x * x; <= x * y; < y * y; }
    } else if y < x {
      calc { y * y; <= y * x; < x * x; }
    }
  }

  /** Multiplying both sides by a positive factor keeps a non-strict
      comparison. */
  lemma ScaleCompare(x: real, y: real, k: real)
    requires 0.0 < k
    ensures x <= y <==> x * k <= y * k
  {
    if x <= y {
      assert (y - x) * k >= 0.0;
    } else {
      assert (x - y) * k > 0.0;
    }
  }

  /** The sign of a product of a negative and a positive factor. */
  lemma NegTimesPos(a: real, b: real)
    requires a < 0.0 && 0.0 < b
    ensures a * b < 0.0
  {
    assert (-a) * b > 0.0;
  }

  /** Two products with positive second factors, equal to each other, have
      first factors of the same sign. */
  lemma SameSign(a: real, k: real, b: real, j: real)
    requires 0.0 < k && 0.0 < j && a * k == b * j
    ensures a < 0.0 <==> b < 0.0
    ensures 0.0 <= a <==> 0.0 <= b
  {
    if a < 0.0 {
      NegTimesPos(a, k);
    }
    if b < 0.0 {
      NegTimesPos(b, j);
    }
  }

  /** A number that a positive factor turns into a square is not negative. */
  lemma NonNegativeFactor(a: real, k: real, b: real)
    requires 0.0 < k && a * k == b * b
    ensures 0.0 <= a
  {
    if a < 0.0 {
      NegTimesPos(a, k);
    }
  }

  /** `ScaleCompare` with the two products given by name. */
  lemma CompareScaled(x: real, y: real, k: real, xk: real, yk: real)
    requires 0.0 < k && xk == x * k && yk == y * k
    ensures x <= y <==> xk <= yk
  {
    ScaleCompare(x, y, k);
  }
}

=== FILE: offset.dfy ===
/** The pipe offset calculator (src/features/offset/logic.ts): two mitred
    bends that shift a pipe run sideways by `offset` over a run of `run`. */
module Offset {
  import opened Numerics
  import opened Records
  import Constants

  /** Pipe diameter, lateral offset, run and thickness in mm, and the density
      in kg/dm³. */
  datatype Dimensions = Dimensions(diameter: real, offset: real, run: real, thickness: real, density: real)

  function Read(data: Data, material: string): (d: Dimensions)
    ensures d.density == Constants.Density(material)
  {
    Dimensions(
      NumberOr(data, "diameter", 0.0),
      NumberOr(data, "offset", 0.0),
      NumberOr(data, "run", 0.0),
      NumberOr(data, "thickness", 0.0),
      Constants.Density(material))
  }

  /** The diagonal length of pipe, √(offset² + run²). */
  function Travel(m: MathLib, d: Dimensions): real {
    Sqrt(m, Sq(d.offset) + Sq(d.run))
  }

  /** The turn of each bend, in degrees. */
  function AngleDeg(m: MathLib, d: Dimensions): real {
    Degrees(Atan2(m, d.offset, d.run))
  }

  /** Each bend is mitred symmetrically: half the turn. */
  function CutAngle(m: MathLib, d: Dimensions): real {
    AngleDeg(m, d) / 2.0
  }

  /** Toe-to-heel set back of the mitre: D·tan(cut). */
  function FullCutBack(m: MathLib, d: Dimensions): real {
    d.diameter * Tan(m, Radians(CutAngle(m, d)))
  }

  function AreaMm2(m: MathLib, d: Dimensions): real {
    PiTimes(d.diameter) * Travel(m, d)
  }

  function Weight(m: MathLib, d: Dimensions): real {
    AreaMm2(m, d) * d.thickness * d.density / 1000000.0
  }

  function VolumeLiters(m: MathLib, d: Dimensions): real {
    PiTimes(Sq(d.diameter / 2.0)) * Travel(m, d) / 1000000.0
  }

  const MetricLabels: seq<string> := [
    "Deslocamento (Set)", "Avanço (Run)", "Diagonal (Travel)", "Ângulo de Desvio",
    "Ângulo de Corte", "Recuo de Corte (Cut Back)", "Área Superficial",
    "Volume Interno", "Peso Estimado"]

  /** There is no input guard; the payload echoes the three inputs and adds
      the travel and the turn. */
  function Evaluate(m: MathLib, d: Dimensions): (r: CalcResult)
    ensures r.metrics == MetricLabels && r.stepCount == 5
    ensures KeysAre(r.calculated, ["diameter", "offset", "run", "travel", "angleDeg"])
    ensures r.calculated["diameter"] == Num(d.diameter)
    ensures r.calculated["offset"] == Num(d.offset)
    ensures r.calculated["run"] == Num(d.run)
    ensures r.calculated["angleDeg"] == Num(AngleDeg(m, d))
  {
    CalcResult(MetricLabels, 5, map[
      "diameter" := Num(d.diameter), "offset" := Num(d.offset), "run" := Num(d.run),
      "travel" := Num(Travel(m, d)), "angleDeg" := Num(AngleDeg(m, d))])
  }

  /** `calculateOffset`: the record read with its defaults, then evaluated;
      the payload carries the record's offset. */
  function Calculate(m: MathLib, data: Data, material: string): (r: CalcResult)
    ensures r == Evaluate(m, Read(data, material))
    ensures r.calculated["offset"] == Num(NumberOr(data, "offset", 0.0))
  {
    Evaluate(m, Read(data, material))
  }

  /** The travel in the payload is the hypotenuse of the offset triangle. */
  lemma TravelIsHypotenuse(m: MathLib, d: Dimensions)
    requires SqrtLaw(m)
    ensures Evaluate(m, d).calculated["travel"] == Num(Travel(m, d))
    ensures var t := Travel(m, d);
      0.0 <= t && t * t == d.offset * d.offset + d.run * d.run
  {
  }

  /** With no offset the pipe runs straight: the travel is the run. */
  lemma StraightRun(m: MathLib, d: Dimensions)
    requires SqrtLaw(m)
    requires d.offset == 0.0 && 0.0 <= d.run
    ensures Travel(m, d) == d.run
  {
    SqrtOfSquare(m, Sq(d.offset) + Sq(d.run), d.run);
  }

  /** Converted back to radians, the cut is exactly half the turn returned by
      atan2, and the degree figure in the payload converts back to that turn;
      the cut back is the diameter times the tangent of that half turn. */
  lemma CutIsHalfTheTurn(m: MathLib, d: Dimensions)
    ensures Evaluate(m, d).calculated["angleDeg"] == Num(AngleDeg(m, d))
    ensures Radians(AngleDeg(m, d)) == Atan2(m, d.offset, d.run)
    ensures 2.0 * Radians(CutAngle(m, d)) == Atan2(m, d.offset, d.run)
    ensures FullCutBack(m, d) == d.diameter * Tan(m, Atan2(m, d.offset, d.run) / 2.0)
  {
    var a := AngleDeg(m, d);
    assert Radians(a) == Atan2(m, d.offset, d.run);
    assert Radians(a / 2.0) == Radians(a) / 2.0;
  }

  /** Surface and capacity are the pipe's circumference and cross-section
      swept along the travel; the weight is that surface times thickness and
      density. */
  lemma SweptAlongTheTravel(m: MathLib, d: Dimensions)
    ensures AreaMm2(m, d) == Pi * d.diameter * Travel(m, d)
    ensures VolumeLiters(m, d) * 1000000.0 == Pi * (d.diameter / 2.0) * (d.diameter / 2.0) * Travel(m, d)
    ensures Weight(m, d) * 1000000.0 == AreaMm2(m, d) * d.thickness * d.density
  {
  }

  lemma EmptyRecord(material: string)
    ensures Read(map[], material) == Dimensions(0.0, 0.0, 0.0, 0.0, Constants.Density(material))
  {
  }
}

=== FILE: pipe_branching.dfy ===
/** The pipe-branch ("boca de lobo") calculator
    (src/features/pipe-branching/logic.ts): the cut on a branch pipe that
    meets a header pipe at an angle, sampled at twelve equal divisions of the
    branch circumference and normalised so that the lowest ordinate is 0. */
module PipeBranching {
  import opened Numerics
  import opened Records

  /** Header and branch diameters in mm and the angle between the pipes in
      degrees. The calculator takes no material. */
  datatype Dimensions = Dimensions(headerDiameter: real, branchDiameter: real, angleDeg: real)

  /** A missing angle reads as a perpendicular branch. */
  function Read(data: Data): (d: Dimensions)
    ensures "angle" !in data ==> d.angleDeg == 90.0
    ensures "headerDiameter" !in data ==> d.headerDiameter == 0.0
    ensures "branchDiameter" !in data ==> d.branchDiameter == 0.0
  {
    Dimensions(
      NumberOr(data, "headerDiameter", 0.0),
      NumberOr(data, "branchDiameter", 0.0),
      NumberOr(data, "angle", 90.0))
  }

  /** Both diameters and the angle must be positive. */
  predicate Valid(d: Dimensions) {
    0.0 < d.headerDiameter && 0.0 < d.branchDiameter && 0.0 < d.angleDeg
  }

  /** The branch circumference is divided into this many parts; the sampled
      points are the `Divisions + 1` division marks, both ends included. */
  const Divisions: nat := 12

  /** Angular position of division mark `i`, in degrees. */
  function SampleAngle(i: nat): real {
    (i as real) * (360.0 / Divisions as real)
  }

  function HeaderRadius(d: Dimensions): real { d.headerDiameter / 2.0 }
  function BranchRadius(d: Dimensions): real { d.branchDiameter / 2.0 }

  /** The branch angle in radians. */
  function Alpha(d: Dimensions): real {
    Radians(d.angleDeg)
  }

  /** Mark `i` in radians. */
  function Phi(i: nat): real {
    Radians(SampleAngle(i))
  }

  /** How far the header surface drops below its crown across the branch
      at mark `i`: `R − √(R² − (r·sin φ)²)`. */
  function Drop(m: MathLib, d: Dimensions, i: nat): real {
    HeaderRadius(d) - Sqrt(m, Sq(HeaderRadius(d)) - Sq(BranchRadius(d) * Sin(m, Phi(i))))
  }

  /** The horizontal offset of mark `i` along the header, `r·cos φ`. */
  function Reach(m: MathLib, d: Dimensions, i: nat): real {
    BranchRadius(d) * Cos(m, Phi(i))
  }

  /** The ordinate of the cut at mark `i` before normalisation: the drop over
      sin α less the slope term `r·cos φ·cos α / sin α` (the source's
      `r·cos φ / tan α`). */
  function RawHeight(m: MathLib, d: Dimensions, i: nat): real {
    Div(Drop(m, d, i), Sin(m, Alpha(d))) - Div(Reach(m, d, i) * Cos(m, Alpha(d)), Sin(m, Alpha(d)))
  }

  /** The thirteen raw samples. */
  function RawPoints(m: MathLib, d: Dimensions): (ps: seq<Point>)
    ensures |ps| == Divisions + 1
    ensures forall i :: 0 <= i < |ps| ==> ps[i] == Point(SampleAngle(i), RawHeight(m, d, i))
  {
    seq(Divisions + 1, i requires 0 <= i => Point(SampleAngle(i), RawHeight(m, d, i)))
  }

  /** `Math.min` over the heights: a lower bound that one of them attains. */
  function MinHeight(ps: seq<Point>): (lo: real)
    requires |ps| > 0
    ensures forall i :: 0 <= i < |ps| ==> lo <= ps[i].height
    ensures exists i :: 0 <= i < |ps| && ps[i].height == lo
  {
    if |ps| == 1 then ps[0].height
    else
      var rest := MinHeight(ps[1..]);
      assert forall i :: 1 <= i < |ps| ==> ps[i] == ps[1..][i - 1];
      if ps[0].height <= rest then ps[0].height
      else
        ghost var k :| 0 <= k < |ps[1..]| && ps[1..][k].height == rest;
        assert ps[k + 1].height == rest;
        rest
  }

  /** `Math.max` over the heights: an upper bound that one of them attains. */
  function MaxHeight(ps: seq<Point>): (hi: real)
    requires |ps| > 0
    ensures forall i :: 0 <= i < |ps| ==> ps[i].height <= hi
    ensures exists i :: 0 <= i < |ps| && ps[i].height == hi
  {
    if |ps| == 1 then ps[0].height
    else
      var rest := MaxHeight(ps[1..]);
      assert forall i :: 1 <= i < |ps| ==> ps[i] == ps[1..][i - 1];
      if rest <= ps[0].height then ps[0].height
      else
        ghost var k :| 0 <= k < |ps[1..]| && ps[1..][k].height == rest;
        assert ps[k + 1].height == rest;
        rest
  }

  /** Every point lowered by `base`, angles untouched. */
  function Lower(ps: seq<Point>, base: real): (qs: seq<Point>)
    ensures |qs| == |ps|
    ensures forall i :: 0 <= i < |qs| ==> qs[i].angle == ps[i].angle
    ensures forall i :: 0 <= i < |qs| ==> qs[i].height + base == ps[i].height
  {
    seq(|ps|, i requires 0 <= i < |ps| => Point(ps[i].angle, ps[i].height - base))
  }

  /** The samples shifted so that the lowest sits at 0. */
  function Normalize(ps: seq<Point>): seq<Point>
    requires |ps| > 0
  {
    Lower(ps, MinHeight(ps))
  }

  /** The template drawn around the branch pipe. */
  function Profile(m: MathLib, d: Dimensions): seq<Point> {
    Normalize(RawPoints(m, d))
  }

  /** The greatest ordinate of the template. */
  function MaxCutHeight(m: MathLib, d: Dimensions): real {
    MaxHeight(Profile(m, d))
  }

  function BranchCircumference(d: Dimensions): real {
    PiTimes(d.branchDiameter)
  }

  const MetricLabels: seq<string> := [
    "Diâmetro Tubo Principal", "Diâmetro Boca de Lobo", "Ângulo",
    "Perímetro (Desenvolvimento)", "Altura Máxima de Corte"]

  const PayloadKeys: seq<string> := [
    "headerDiameter", "branchDiameter", "angleDeg", "branchCircumference", "points"]

  /** The full result around a template curve. */
  function Assemble(d: Dimensions, points: seq<Point>): (r: CalcResult)
    ensures r.metrics == MetricLabels && r.stepCount == 4 && KeysAre(r.calculated, PayloadKeys)
    ensures r.calculated["headerDiameter"] == Num(d.headerDiameter)
    ensures r.calculated["branchDiameter"] == Num(d.branchDiameter)
    ensures r.calculated["angleDeg"] == Num(d.angleDeg)
    ensures r.calculated["branchCircumference"] == Num(BranchCircumference(d))
    ensures r.calculated["points"] == Curve(points)
  {
    CalcResult(MetricLabels, 4, map[
      "headerDiameter" := Num(d.headerDiameter),
      "branchDiameter" := Num(d.branchDiameter),
      "angleDeg" := Num(d.angleDeg),
      "branchCircumference" := Num(BranchCircumference(d)),
      "points" := Curve(points)])
  }

  /** Invalid dimensions give the empty result; otherwise five metrics, four
      steps, and a payload of the three inputs, the circumference and the
      template curve. */
  function Evaluate(m: MathLib, d: Dimensions): (r: CalcResult)
    ensures !Valid(d) ==> r == Blank
    ensures Valid(d) ==>
      r.metrics == MetricLabels && r.stepCount == 4 && KeysAre(r.calculated, PayloadKeys) &&
      r.calculated["headerDiameter"] == Num(d.headerDiameter) &&
      r.calculated["branchDiameter"] == Num(d.branchDiameter) &&
      r.calculated["angleDeg"] == Num(d.angleDeg) &&
      r.calculated["branchCircumference"] == Num(BranchCircumference(d)) &&
      r.calculated["points"] == Curve(Profile(m, d))
  {
    if !Valid(d) then Blank else Assemble(d, Profile(m, d))
  }

  /** `calculatePipeBranching`: the record read with its defaults, then
      evaluated; a missing diameter gives the empty result. */
  function Calculate(m: MathLib, data: Data): (r: CalcResult)
    ensures r == Evaluate(m, Read(data))
    ensures "headerDiameter" !in data || "branchDiameter" !in data ==> r == Blank
  {
    Evaluate(m, Read(data))
  }

  /** The division marks run from 0° to 360° in strictly increasing steps of
      30°. */
  lemma MarksSpanTheCircle()
    ensures SampleAngle(0) == 0.0 && SampleAngle(Divisions) == 360.0
    ensures forall i: nat :: SampleAngle(i) == 30.0 * i as real
    ensures forall i: nat, j: nat :: i < j ==> SampleAngle(i) < SampleAngle(j)
  {
  }

  /** Normalisation keeps the number of points, every angle and every
      difference between two heights; afterwards no height is negative and
      the lowest is exactly 0. */
  lemma {:induction false} NormalizeShifts(ps: seq<Point>)
    requires |ps| > 0
    ensures var qs := Normalize(ps);
      |qs| == |ps| &&
      (forall i :: 0 <= i < |qs| ==> qs[i].angle == ps[i].angle) &&
      (forall i, j :: 0 <= i < |qs| && 0 <= j < |qs| ==>
         qs[i].height - qs[j].height == ps[i].height - ps[j].height) &&
      (forall i :: 0 <= i < |qs| ==> 0.0 <= qs[i].height) &&
      (exists i :: 0 <= i < |qs| && qs[i].height == 0.0)
  {
    var qs := Normalize(ps);
    var k :| 0 <= k < |ps| && ps[k].height == MinHeight(ps);
    assert qs[k].height == 0.0;
  }

  /** The template has one point per division mark, at that mark's angle;
      its heights are the raw ordinates shifted by a common amount, none is
      negative and one is 0. */
  lemma ProfileShape(m: MathLib, d: Dimensions)
    ensures var ps := Profile(m, d);
      |ps| == Divisions + 1 &&
      (forall i :: 0 <= i < |ps| ==> ps[i].angle == SampleAngle(i)) &&
      (forall i, j :: 0 <= i < |ps| && 0 <= j < |ps| ==>
         ps[i].height - ps[j].height == RawHeight(m, d, i) - RawHeight(m, d, j)) &&
      (forall i :: 0 <= i < |ps| ==> 0.0 <= ps[i].height) &&
      (exists i :: 0 <= i < |ps| && ps[i].height == 0.0)
  {
    var raw := RawPoints(m, d);
    NormalizeShifts(raw);
    var ps := Profile(m, d);
    forall i | 0 <= i < |ps|
      ensures ps[i].angle == SampleAngle(i)
    {
      assert raw[i].angle == SampleAngle(i);
    }
    forall i, j | 0 <= i < |ps| && 0 <= j < |ps|
      ensures ps[i].height - ps[j].height == RawHeight(m, d, i) - RawHeight(m, d, j)
    {
      assert raw[i].height == RawHeight(m, d, i);
      assert raw[j].height == RawHeight(m, d, j);
    }
  }

  /** The maximum cut height bounds every ordinate of the template, is one of
      them, and is not negative. */
  lemma MaxCutHeightBounds(m: MathLib, d: Dimensions)
    ensures var ps, h := Profile(m, d), MaxCutHeight(m, d);
      0.0 <= h &&
      (forall i :: 0 <= i < |ps| ==> ps[i].height <= h) &&
      (exists i :: 0 <= i < |ps| && ps[i].height == h)
  {
    ProfileShape(m, d);
    var ps := Profile(m, d);
    assert 0.0 <= ps[0].height <= MaxHeight(ps);
  }

  /** For a perpendicular branch (sin 90° = 1, cos 90° = 0) the slope term
      vanishes and the ordinate is the drop R − √(R² − (r·sin φ)²). */
  lemma PerpendicularOrdinate(m: MathLib, d: Dimensions, i: nat)
    requires d.angleDeg == 90.0
    requires Sin(m, Radians(90.0)) == 1.0 && Cos(m, Radians(90.0)) == 0.0
    ensures var R, r, s := HeaderRadius(d), BranchRadius(d), Sin(m, Phi(i));
      RawHeight(m, d, i) == R - Sqrt(m, Sq(R) - Sq(r * s))
  {
    var R, r, s := HeaderRadius(d), BranchRadius(d), Sin(m, Phi(i));
    var sa, ca := Sin(m, Alpha(d)), Cos(m, Alpha(d));
    assert sa == 1.0 && ca == 0.0;
    assert Div(Drop(m, d, i), sa) == Drop(m, d, i);
    assert Reach(m, d, i) * ca == 0.0;
    assert Div(Reach(m, d, i) * ca, sa) == 0.0;
    assert RawHeight(m, d, i) == Drop(m, d, i);
  }

  /** The circumference in the payload is π times the branch diameter. */
  lemma DevelopedLength(m: MathLib, d: Dimensions)
    requires Valid(d)
    ensures Evaluate(m, d).calculated["branchCircumference"] == Num(Pi * d.branchDiameter)
  {
  }

  /** An empty record has no diameters and gives the empty result. */
  lemma EmptyRecord(m: MathLib)
    ensures Read(map[]) == Dimensions(0.0, 0.0, 90.0)
    ensures Calculate(m, map[]) == Blank
  {
  }
}

=== FILE: plate_weight.dfy ===
/** The plate weight calculator (src/features/plate-weight/logic.ts): the
    mass and area of `quantity` identical rectangular plates. */
module PlateWeight {
  import opened Numerics
  import opened Records
  import Constants

  /** Plate width, length and thickness in mm, the number of plates and the
      density in kg/dm³. */
  datatype Dimensions = Dimensions(width: real, length: real, thickness: real, quantity: real, density: real)

  /** An unset quantity reads as one plate; an unknown material as 7.85. */
  function Read(data: Data, material: string): (d: Dimensions)
    ensures "quantity" !in data ==> d.quantity == 1.0
    ensures d.quantity != 0.0
    ensures material !in Constants.Densities ==> d.density == Constants.FallbackDensity
    ensures 0.0 < d.density
  {
    Dimensions(
      NumberOr(data, "width", 0.0),
      NumberOr(data, "length", 0.0),
      NumberOr(data, "thickness", 0.0),
      NumberOr(data, "quantity", 1.0),
      Constants.Density(material))
  }

  /** All three dimensions must be positive. */
  predicate Valid(d: Dimensions) {
    0.0 < d.width && 0.0 < d.length && 0.0 < d.thickness
  }

  /** One plate's volume in dm³. */
  function VolumeDm3(d: Dimensions): real {
    d.width * d.length * d.thickness / 1000000.0
  }

  function WeightKg(d: Dimensions): real {
    VolumeDm3(d) * d.density
  }

  function TotalWeightKg(d: Dimensions): real {
    WeightKg(d) * d.quantity
  }

  /** One face of one plate in m². */
  function AreaM2(d: Dimensions): real {
    d.width * d.length / 1000000.0
  }

  function TotalAreaM2(d: Dimensions): real {
    AreaM2(d) * d.quantity
  }

  const MetricLabels: seq<string> := [
    "Peso Unitário", "Peso Total", "Quantidade", "Área Unitária", "Área Total", "Volume Unitário"]

  const PayloadKeys: seq<string> := [
    "width", "length", "thickness", "weightKg", "totalWeightKg", "totalAreaM2", "volumeDm3"]

  /** Invalid dimensions give no metrics, one prompt step and an empty
      payload; otherwise six metrics, five steps, and the three dimensions
      with the weights, total area and volume. */
  function Evaluate(d: Dimensions): (r: CalcResult)
    ensures !Valid(d) ==> r == CalcResult([], 1, map[])
    ensures Valid(d) ==>
      r.metrics == MetricLabels && r.stepCount == 5 && KeysAre(r.calculated, PayloadKeys) &&
      r.calculated["width"] == Num(d.width) && r.calculated["length"] == Num(d.length) &&
      r.calculated["thickness"] == Num(d.thickness) &&
      r.calculated["weightKg"] == Num(WeightKg(d)) &&
      r.calculated["totalWeightKg"] == Num(TotalWeightKg(d)) &&
      r.calculated["totalAreaM2"] == Num(TotalAreaM2(d)) &&
      r.calculated["volumeDm3"] == Num(VolumeDm3(d))
  {
    if !Valid(d) then CalcResult([], 1, map[])
    else
      CalcResult(MetricLabels, 5, map[
        "width" := Num(d.width), "length" := Num(d.length), "thickness" := Num(d.thickness),
        "weightKg" := Num(WeightKg(d)), "totalWeightKg" := Num(TotalWeightKg(d)),
        "totalAreaM2" := Num(TotalAreaM2(d)), "volumeDm3" := Num(VolumeDm3(d))])
  }

  /** `calculatePlateWeight`: the record read with its defaults, then
      evaluated; without a width there is no plate. */
  function Calculate(data: Data, material: string): (r: CalcResult)
    ensures r == Evaluate(Read(data, material))
    ensures "width" !in data ==> r == CalcResult([], 1, map[])
  {
    Evaluate(Read(data, material))
  }

  /** A plate's weight is its volume, width × length × thickness, times the
      density, and is strictly positive for a valid plate of a real
      material. */
  lemma PlateMass(d: Dimensions)
    ensures WeightKg(d) * 1000000.0 == d.width * d.length * d.thickness * d.density
    ensures Valid(d) && 0.0 < d.density ==> 0.0 < WeightKg(d)
  {
    if Valid(d) && 0.0 < d.density {
      var wl := d.width * d.length;
      assert 0.0 < wl by {
        CompareScaled(0.0, d.width, d.length, 0.0, wl);
      }
      var wlt := wl * d.thickness;
      assert 0.0 < wlt by {
        CompareScaled(0.0, wl, d.thickness, 0.0, wlt);
      }
      assert 0.0 < wlt / 1000000.0 * d.density by {
        CompareScaled(0.0, wlt / 1000000.0, d.density, 0.0, wlt / 1000000.0 * d.density);
      }
    }
  }

  /** The lot is `quantity` plates: both weight and area scale by it. */
  lemma LotTotals(d: Dimensions)
    ensures TotalWeightKg(d) == WeightKg(d) * d.quantity
    ensures TotalAreaM2(d) * 1000000.0 == d.width * d.length * d.quantity
    ensures d.quantity == 1.0 ==> TotalWeightKg(d) == WeightKg(d) && TotalAreaM2(d) == AreaM2(d)
  {
  }

  /** A plate's weight is linear in the density: the same plate in another
      material weighs in proportion. */
  lemma WeightScalesWithDensity(d: Dimensions, density: real)
    ensures WeightKg(d.(density := density)) * d.density == WeightKg(d) * density
  {
  }

  /** An empty record is not a plate. */
  lemma EmptyRecord(material: string)
    ensures Calculate(map[], material) == CalcResult([], 1, map[])
  {
  }
}

=== FILE: records.dfy ===
/** The shapes every calculator shares (src/types/index.ts): the loosely typed
    dimension record a calculator reads, and the `CalcResult` it returns. */
module Records {

  /** One field of a dimension record. The input panel stores numeric fields as
      numbers and the selector fields (`diameterStr`, `boltClass`, `subShape`)
      as strings. */
  datatype Field = NumField(n: real) | TextField(s: string)

  /** A dimension record: a missing key is a field the user has not filled in. */
  type Data = map<string, Field>

  /** `Number(data[key]) || fallback`: a present, non-zero number is kept;
      a missing field, a zero, or a field that is not a number reads as
      `fallback`. */
  function NumberOr(data: Data, key: string, fallback: real): (x: real)
    ensures x == fallback || (key in data && data[key] == NumField(x) && x != 0.0)
    ensures key !in data ==> x == fallback
    ensures key in data && data[key] == NumField(0.0) ==> x == fallback
  {
    if key in data && data[key].NumField? && data[key].n != 0.0 then data[key].n else fallback
  }

  /** `String(data[key] || fallback)` for a selector field: a present,
      non-empty string is kept, anything else reads as `fallback`. */
  function StringOr(data: Data, key: string, fallback: string): (s: string)
    ensures s == fallback || (key in data && data[key] == TextField(s) && s != "")
    ensures key !in data ==> s == fallback
  {
    if key in data && data[key].TextField? && data[key].s != "" then data[key].s else fallback
  }

  /** One sample of a development curve. */
  datatype Point = Point(angle: real, height: real)

  /** A value of the `calculated` payload handed to the drawing code. */
  datatype Value = Num(x: real) | Text(s: string) | Curve(points: seq<Point>)

  /** A record field carried over unchanged into `calculated`. */
  function Echo(f: Field): (v: Value)
    ensures f.NumField? <==> v.Num?
    ensures f.NumField? ==> v.x == f.n
    ensures f.TextField? ==> v == Text(f.s)
  {
    match f
    case NumField(n) => Num(n)
    case TextField(s) => Text(s)
  }

  /** What a calculator returns. Only the labels of `metrics` are kept (their
      text is formatting), `steps` is kept as its length, and `calculated`
      keeps its exact numbers. */
  datatype CalcResult = CalcResult(metrics: seq<string>, stepCount: nat, calculated: map<string, Value>)

  /** The payload holds exactly the given keys. */
  ghost predicate KeysAre(calculated: map<string, Value>, keys: seq<string>) {
    forall k :: k in calculated <==> k in keys
  }

  /** `{ metrics: {}, steps: [], calculated: {} }`. */
  const Blank: CalcResult := CalcResult([], 0, map[])
}

=== FILE: square_to_round.dfy ===
/** The square-to-round transition calculator
    (src/features/square-to-round/logic.ts): a square base of side `width`
    joined to a round top of diameter `diameter`, `height` apart. */
module SquareToRound {
  import opened Numerics
  import opened Records
  import Constants

  /** Base side, top diameter, vertical height and thickness in mm, and the
      material's density in kg/dm³. */
  datatype Dimensions = Dimensions(width: real, diameter: real, height: real, thickness: real, density: real)

  function Read(data: Data, material: string): (d: Dimensions)
    ensures d.density == Constants.Density(material)
  {
    Dimensions(
      NumberOr(data, "width", 0.0),
      NumberOr(data, "diameter", 0.0),
      NumberOr(data, "height", 0.0),
      NumberOr(data, "thickness", 0.0),
      Constants.Density(material))
  }

  function BaseArea(d: Dimensions): real { d.width * d.width }

  function TopArea(d: Dimensions): real { PiTimes(Sq(d.diameter / 2.0)) }

  /** Prismoid capacity in litres: H/3·(A_base + A_top + √(A_base·A_top)). */
  function VolumeLiters(m: MathLib, d: Dimensions): real {
    var aBase := BaseArea(d);
    var aTop := TopArea(d);
    (d.height / 3.0) * (aBase + aTop + Sqrt(m, aBase * aTop)) / 1000000.0
  }

  /** The averaged slant height √(H² + ((w − D)/2)²). */
  function SlantHeight(m: MathLib, d: Dimensions): real {
    Sqrt(m, Sq(d.height) + Sq((d.width - d.diameter) / 2.0))
  }

  /** The sheet area in mm², approximated as the mean of the square's and the
      circle's perimeter times the slant height. */
  function AreaMm2(m: MathLib, d: Dimensions): real {
    ((4.0 * d.width + PiTimes(d.diameter)) / 2.0) * SlantHeight(m, d)
  }

  function Weight(m: MathLib, d: Dimensions): real {
    AreaMm2(m, d) * d.thickness * d.density / 1000000.0
  }

  const MetricLabels: seq<string> := [
    "Altura Vertical", "Base Quadrada", "Topo Redondo", "Área Superficial",
    "Volume Interno", "Peso Estimado"]

  /** There is no input guard; the drawing payload is the three dimensions as
      read. */
  function Evaluate(d: Dimensions): (r: CalcResult)
    ensures r.metrics == MetricLabels && r.stepCount == 6
    ensures KeysAre(r.calculated, ["width", "diameter", "height"])
    ensures r.calculated["width"] == Num(d.width)
    ensures r.calculated["diameter"] == Num(d.diameter)
    ensures r.calculated["height"] == Num(d.height)
  {
    CalcResult(MetricLabels, 6,
      map["width" := Num(d.width), "diameter" := Num(d.diameter), "height" := Num(d.height)])
  }

  /** `calculateSquareToRound`: the record read with its defaults, then
      evaluated; the drawing gets the record's side. */
  function Calculate(data: Data, material: string): (r: CalcResult)
    ensures r == Evaluate(Read(data, material))
    ensures r.calculated["width"] == Num(NumberOr(data, "width", 0.0))
  {
    Evaluate(Read(data, material))
  }

  /** The slant height is the hypotenuse over the height and half the
      difference between side and diameter. */
  lemma Slant(m: MathLib, d: Dimensions)
    requires SqrtLaw(m)
    ensures var s := SlantHeight(m, d);
      0.0 <= s && s * s == d.height * d.height + (d.width - d.diameter) * (d.width - d.diameter) / 4.0
  {
  }

  /** With a top as wide as the base the sides are vertical: the slant height
      is the height itself. */
  lemma VerticalSides(m: MathLib, d: Dimensions)
    requires SqrtLaw(m)
    requires d.width == d.diameter && 0.0 <= d.height
    ensures SlantHeight(m, d) == d.height
  {
    SqrtOfSquare(m, Sq(d.height) + Sq((d.width - d.diameter) / 2.0), d.height);
  }

  /** With a point for a top the prismoid is a pyramid on the square base,
      H·w²/3; with no height there is no volume. */
  lemma PyramidLimit(m: MathLib, d: Dimensions)
    requires SqrtLaw(m)
    ensures d.diameter == 0.0 ==> VolumeLiters(m, d) * 1000000.0 == d.height * d.width * d.width / 3.0
    ensures d.height == 0.0 ==> VolumeLiters(m, d) == 0.0
  {
    if d.diameter == 0.0 {
      assert TopArea(d) == 0.0;
      assert BaseArea(d) * TopArea(d) == 0.0;
      SqrtOfSquare(m, BaseArea(d) * TopArea(d), 0.0);
    }
  }

  /** The weight is the sheet area times thickness times density, and the
      sheet area is the mean perimeter times the slant height. */
  lemma SheetWeight(m: MathLib, d: Dimensions)
    ensures AreaMm2(m, d) == (4.0 * d.width + Pi * d.diameter) / 2.0 * SlantHeight(m, d)
    ensures Weight(m, d) * 1000000.0 == AreaMm2(m, d) * d.thickness * d.density
    ensures d.thickness == 0.0 ==> Weight(m, d) == 0.0
  {
  }

  lemma EmptyRecord(material: string)
    ensures Read(map[], material) == Dimensions(0.0, 0.0, 0.0, 0.0, Constants.Density(material))
  {
  }
}

=== FILE: stairs.dfy ===
/** The straight stair calculator (src/features/stairs/logic.ts): a flight
    rising `height` over a horizontal `base`, split into steps of a rise near
    175 mm, checked against Blondel's rule and costed in stringers and treads. */
module Stairs {
  import opened Numerics
  import opened Records
  import Constants

  /** Total rise, stair width, horizontal base and plate thickness in mm, and
      the density in kg/dm³. */
  datatype Dimensions = Dimensions(height: real, width: real, base: real, thickness: real, density: real)

  /** An unset base falls back to the `length` field (itself 0 when unset). */
  function Read(data: Data, material: string): (d: Dimensions)
    ensures d.density == Constants.Density(material)
    ensures "base" !in data ==> d.base == NumberOr(data, "length", 0.0)
    ensures "thickness" !in data ==> d.thickness == 0.0
  {
    Dimensions(
      NumberOr(data, "height", 0.0),
      NumberOr(data, "width", 0.0),
      NumberOr(data, "base", NumberOr(data, "length", 0.0)),
      NumberOr(data, "thickness", 0.0),
      Constants.Density(material))
  }

  /** Only the height is required. */
  predicate Valid(d: Dimensions) {
    0.0 < d.height
  }

  /** The rise a step is aimed at, in mm. */
  const IdealRise: real := 175.0

  /** The tread depth used when there is no base, in mm. */
  const DefaultRun: real := 280.0

  /** `Math.round(height / 175) || 1`: the nearest whole number of steps, and
      one step when that is zero. */
  function StepCount(d: Dimensions): (n: int)
    requires Valid(d)
    ensures 1 <= n
  {
    var nearest := Round(d.height / IdealRise);
    if nearest == 0 then 1 else nearest
  }

  function Rise(d: Dimensions): real
    requires Valid(d)
  {
    d.height / StepCount(d) as real
  }

  function Run(d: Dimensions): real
    requires Valid(d)
  {
    if d.base > 0.0 then d.base / StepCount(d) as real else DefaultRun
  }

  /** Blondel's step measure 2E + P, in mm. */
  function Blondel(d: Dimensions): real
    requires Valid(d)
  {
    2.0 * Rise(d) + Run(d)
  }

  /** The comfort band of Blondel's rule, both ends included. */
  predicate BlondelOk(d: Dimensions)
    requires Valid(d)
  {
    630.0 <= Blondel(d) <= 650.0
  }

  /** One stringer along the slope, √(H² + B²). */
  function StringerLength(m: MathLib, d: Dimensions): real {
    Sqrt(m, Sq(d.height) + Sq(d.base))
  }

  function TotalStringerLength(m: MathLib, d: Dimensions): real {
    StringerLength(m, d) * 2.0
  }

  function TotalStepLength(d: Dimensions): real
    requires Valid(d)
  {
    StepCount(d) as real * d.width
  }

  /** Sheet area of two 200 mm stringers plus the developed treads. */
  function TotalAreaMm2(m: MathLib, d: Dimensions): real
    requires Valid(d)
  {
    var stringers := StringerLength(m, d) * 200.0 * 2.0;
    var steps := StepCount(d) as real * d.width * (Run(d) + Rise(d));
    stringers + steps
  }

  /** With a thickness, the sheet weight; without one, a rough 15 kg per
      metre of stringer plus 40 kg per square metre of tread. */
  function Weight(m: MathLib, d: Dimensions): real
    requires Valid(d)
  {
    if d.thickness > 0.0 then TotalAreaMm2(m, d) * d.thickness * d.density / 1000000.0
    else FallbackWeight(m, d)
  }

  function FallbackWeight(m: MathLib, d: Dimensions): real
    requires Valid(d)
  {
    TotalStringerLength(m, d) / 1000.0 * 15.0 + TotalStepLength(d) / 1000.0 * Run(d) / 1000.0 * 40.0
  }

  function VolumeDm3(m: MathLib, d: Dimensions): real
    requires Valid(d)
  {
    TotalAreaMm2(m, d) * d.thickness / 1000000.0
  }

  function AngleDeg(m: MathLib, d: Dimensions): real {
    Degrees(Atan2(m, d.height, d.base))
  }

  const MetricLabels: seq<string> := [
    "Altura Total", "Base Total", "Número de Degraus", "Espelho (Rise)", "Piso (Run)",
    "Blondel (2E+P)", "Ângulo de Inclinação", "Comp. Total Banzos", "Comp. Total Degraus",
    "Peso Estimado"]

  const WaitingKeys: seq<string> := [
    "height", "base", "width", "diagonal", "angleDeg", "topAngleDeg", "weight", "forceKg",
    "stressMPa", "status", "maxLoadKg"]

  const PayloadKeys: seq<string> := [
    "height", "base", "numSteps", "rise", "run", "stringerLength", "weightKg", "totalWeightKg",
    "totalAreaM2", "volumeDm3", "angleDeg", "totalStringerLength", "totalStepLength"]

  /** The figures of a valid flight, in the payload's units. */
  datatype Flight = Flight(
    numSteps: real, rise: real, run: real, stringerLength: real, weightKg: real,
    totalAreaM2: real, volumeDm3: real, angleDeg: real, totalStringerLength: real,
    totalStepLength: real)

  function Plan(m: MathLib, d: Dimensions): (f: Flight)
    requires Valid(d)
    ensures f.numSteps == StepCount(d) as real && f.rise == Rise(d) && f.run == Run(d)
    ensures f.weightKg == Weight(m, d) && f.volumeDm3 == VolumeDm3(m, d)
    ensures f.totalStringerLength == TotalStringerLength(m, d)
    ensures f.stringerLength == StringerLength(m, d) && f.angleDeg == AngleDeg(m, d)
    ensures f.totalAreaM2 == TotalAreaMm2(m, d) / 1000000.0
    ensures f.totalStepLength == TotalStepLength(d)
  {
    Flight(
      StepCount(d) as real, Rise(d), Run(d), StringerLength(m, d), Weight(m, d),
      TotalAreaMm2(m, d) / 1000000.0, VolumeDm3(m, d), AngleDeg(m, d),
      TotalStringerLength(m, d), TotalStepLength(d))
  }

  /** The waiting result for a missing height: the warning metric, one step,
      the height and base as read, and zeros for every figure. */
  function Waiting(d: Dimensions): (r: CalcResult)
    ensures r.metrics == ["Aviso"] && r.stepCount == 1
    ensures "height" in r.calculated && r.calculated["height"] == Num(d.height)
    ensures "base" in r.calculated && r.calculated["base"] == Num(d.base)
    ensures "status" in r.calculated && r.calculated["status"] == Text("Aguardando dados")
    ensures forall k :: k in r.calculated && k != "height" && k != "base" && k != "status" ==>
      r.calculated[k] == Num(0.0)
  {
    CalcResult(["Aviso"], 1, map[
      "height" := Num(d.height), "base" := Num(d.base), "width" := Num(0.0),
      "diagonal" := Num(0.0), "angleDeg" := Num(0.0), "topAngleDeg" := Num(0.0),
      "weight" := Num(0.0), "forceKg" := Num(0.0), "stressMPa" := Num(0.0),
      "status" := Text("Aguardando dados"), "maxLoadKg" := Num(0.0)])
  }

  /** The full result around a flight's figures. */
  function Assemble(d: Dimensions, f: Flight): (r: CalcResult)
    ensures r.metrics == MetricLabels && r.stepCount == 5
    ensures "height" in r.calculated && r.calculated["height"] == Num(d.height)
    ensures "base" in r.calculated && r.calculated["base"] == Num(d.base)
    ensures "numSteps" in r.calculated && r.calculated["numSteps"] == Num(f.numSteps)
    ensures "rise" in r.calculated && r.calculated["rise"] == Num(f.rise)
    ensures "run" in r.calculated && r.calculated["run"] == Num(f.run)
    ensures "weightKg" in r.calculated && r.calculated["weightKg"] == Num(f.weightKg)
    ensures "totalWeightKg" in r.calculated && r.calculated["totalWeightKg"] == Num(f.weightKg)
    ensures "stringerLength" in r.calculated && r.calculated["stringerLength"] == Num(f.stringerLength)
    ensures "totalAreaM2" in r.calculated && r.calculated["totalAreaM2"] == Num(f.totalAreaM2)
    ensures "volumeDm3" in r.calculated && r.calculated["volumeDm3"] == Num(f.volumeDm3)
    ensures "angleDeg" in r.calculated && r.calculated["angleDeg"] == Num(f.angleDeg)
    ensures "totalStringerLength" in r.calculated &&
      r.calculated["totalStringerLength"] == Num(f.totalStringerLength)
    ensures "totalStepLength" in r.calculated &&
      r.calculated["totalStepLength"] == Num(f.totalStepLength)
  {
    CalcResult(MetricLabels, 5, map[
      "height" := Num(d.height), "base" := Num(d.base), "numSteps" := Num(f.numSteps),
      "rise" := Num(f.rise), "run" := Num(f.run), "stringerLength" := Num(f.stringerLength),
      "weightKg" := Num(f.weightKg), "totalWeightKg" := Num(f.weightKg),
      "totalAreaM2" := Num(f.totalAreaM2), "volumeDm3" := Num(f.volumeDm3),
      "angleDeg" := Num(f.angleDeg), "totalStringerLength" := Num(f.totalStringerLength),
      "totalStepLength" := Num(f.totalStepLength)])
  }

  /** The waiting payload holds exactly its eleven keys. */
  lemma WaitingKeysExact(d: Dimensions)
    ensures KeysAre(Waiting(d).calculated, WaitingKeys)
  {
    var payload := Waiting(d).calculated;
    forall k
      ensures k in payload <==> k in WaitingKeys
    {
      if k in WaitingKeys {
        var i :| 0 <= i < |WaitingKeys| && WaitingKeys[i] == k;
        assert k in payload;
      }
    }
  }

  /** The full payload holds exactly its thirteen keys. */
  lemma AssembleKeys(d: Dimensions, f: Flight)
    ensures KeysAre(Assemble(d, f).calculated, PayloadKeys)
  {
    var payload := Assemble(d, f).calculated;
    forall k
      ensures k in payload <==> k in PayloadKeys
    {
      if k in PayloadKeys {
        var i :| 0 <= i < |PayloadKeys| && PayloadKeys[i] == k;
        assert k in payload;
      }
    }
  }

  /** The result for a flight with a height. */
  function Full(m: MathLib, d: Dimensions): (r: CalcResult)
    requires Valid(d)
    ensures r.metrics == MetricLabels && r.stepCount == 5 && KeysAre(r.calculated, PayloadKeys)
    ensures "height" in r.calculated && r.calculated["height"] == Num(d.height)
    ensures "base" in r.calculated && r.calculated["base"] == Num(d.base)
    ensures "numSteps" in r.calculated && r.calculated["numSteps"] == Num(StepCount(d) as real)
    ensures "rise" in r.calculated && r.calculated["rise"] == Num(Rise(d))
    ensures "run" in r.calculated && r.calculated["run"] == Num(Run(d))
    ensures "weightKg" in r.calculated && r.calculated["weightKg"] == Num(Weight(m, d))
    ensures "totalWeightKg" in r.calculated && r.calculated["totalWeightKg"] == Num(Weight(m, d))
  {
    var f := Plan(m, d);
    AssembleKeys(d, f);
    Assemble(d, f)
  }

  /** A missing height gives the waiting result; otherwise ten metrics, five
      steps and the thirteen figures of `Full`. */
  function Evaluate(m: MathLib, d: Dimensions): (r: CalcResult)
    ensures !Valid(d) ==>
      r.metrics == ["Aviso"] && r.stepCount == 1 && KeysAre(r.calculated, WaitingKeys)
    ensures Valid(d) ==>
      r.metrics == MetricLabels && r.stepCount == 5 && KeysAre(r.calculated, PayloadKeys)
    ensures "height" in r.calculated && r.calculated["height"] == Num(d.height)
    ensures "base" in r.calculated && r.calculated["base"] == Num(d.base)
  {
    if !Valid(d) then
      WaitingKeysExact(d);
      Waiting(d)
    else
      Full(m, d)
  }

  /** `calculateStairs`: the record read with its defaults, then evaluated;
      without a height it waits for data. */
  function Calculate(m: MathLib, data: Data, material: string): (r: CalcResult)
    ensures r == Evaluate(m, Read(data, material))
    ensures "height" !in data ==> r.metrics == ["Aviso"]
  {
    Evaluate(m, Read(data, material))
  }

  /** The remaining six figures of a valid flight's payload: the stringer
      and its pair, the sheet area in m², the volume, the slope angle and the
      total tread length. */
  lemma FlightFigures(m: MathLib, d: Dimensions)
    requires Valid(d)
    ensures var c := Evaluate(m, d).calculated;
      c["stringerLength"] == Num(StringerLength(m, d)) &&
      c["totalAreaM2"] == Num(TotalAreaMm2(m, d) / 1000000.0) &&
      c["volumeDm3"] == Num(VolumeDm3(m, d)) &&
      c["angleDeg"] == Num(AngleDeg(m, d)) &&
      c["totalStringerLength"] == Num(TotalStringerLength(m, d)) &&
      c["totalStepLength"] == Num(TotalStepLength(d))
  {
    var f := Plan(m, d);
    assert Evaluate(m, d) == Assemble(d, f);
  }

  /** Without a height every figure of the waiting payload is zero, weight,
      force, stress and maximum load included. */
  lemma WaitingIsZero(m: MathLib, d: Dimensions)
    requires !Valid(d)
    ensures var c := Evaluate(m, d).calculated;
      c["weight"] == c["forceKg"] == c["stressMPa"] == c["maxLoadKg"] == Num(0.0) &&
      c["width"] == c["diagonal"] == c["angleDeg"] == c["topAngleDeg"] == Num(0.0)
  {
    WaitingKeysExact(d);
  }

  /** The step count is the height over 175 mm rounded to the nearest whole
      number, and one when that rounds to zero (below 87.5 mm). */
  lemma StepsNearestIdeal(d: Dimensions)
    requires Valid(d)
    ensures d.height < 87.5 <==> StepCount(d) == 1 && Round(d.height / IdealRise) == 0
    ensures 87.5 <= d.height ==>
      StepCount(d) as real - 0.5 <= d.height / IdealRise < StepCount(d) as real + 0.5
  {
  }

  /** The steps add up to the height, and, with a base, the treads add up to
      the base; without one each tread is 280 mm. */
  lemma StepsFillTheFlight(d: Dimensions)
    requires Valid(d)
    ensures Rise(d) * StepCount(d) as real == d.height
    ensures 0.0 < d.base ==> Run(d) * StepCount(d) as real == d.base
    ensures d.base <= 0.0 ==> Run(d) == DefaultRun
  {
  }

  /** With a base, Blondel's rule holds for the steps exactly when it holds
      for the flight as a whole: 630·n ≤ 2H + B ≤ 650·n for n steps. */
  lemma BlondelForTheFlight(d: Dimensions)
    requires Valid(d) && 0.0 < d.base
    ensures BlondelOk(d) <==>
      630.0 * StepCount(d) as real <= 2.0 * d.height + d.base <= 650.0 * StepCount(d) as real
  {
    var n := StepCount(d) as real;
    var total := 2.0 * d.height + d.base;
    assert Blondel(d) * n == total by {
      StepsFillTheFlight(d);
      assert Blondel(d) * n == 2.0 * (Rise(d) * n) + Run(d) * n;
    }
    CompareScaled(630.0, Blondel(d), n, 630.0 * n, total);
    CompareScaled(Blondel(d), 650.0, n, total, 650.0 * n);
  }

  /** The two stringers together are twice the slope's hypotenuse. */
  lemma StringersSpanTheSlope(m: MathLib, d: Dimensions)
    requires SqrtLaw(m)
    ensures var s := StringerLength(m, d);
      0.0 <= s && s * s == d.height * d.height + d.base * d.base
    ensures TotalStringerLength(m, d) == 2.0 * StringerLength(m, d)
  {
  }

  /** With a thickness the weight is the sheet area times thickness times
      density; without one it is the rough per-metre estimate and there is
      no volume. */
  lemma WeightBranches(m: MathLib, d: Dimensions)
    requires Valid(d)
    ensures 0.0 < d.thickness ==>
      Weight(m, d) * 1000000.0 == TotalAreaMm2(m, d) * d.thickness * d.density
    ensures d.thickness <= 0.0 ==> Weight(m, d) == FallbackWeight(m, d)
    ensures d.thickness == 0.0 ==> VolumeDm3(m, d) == 0.0
  {
  }

  /** An unset base takes the `length` field. */
  lemma BaseFallsBackToLength(material: string, length: real)
    requires length != 0.0
    ensures Read(map["length" := NumField(length)], material).base == length
    ensures Read(map["length" := NumField(length), "base" := NumField(0.0)], material).base == length
  {
  }
}

=== FILE: volumes.dfy ===
/** The volume and surface calculator (src/features/volumes/logic.ts): the
    volume and total surface of a cylinder, cone, box, rectangular pyramid or
    sphere, chosen by the `subShape` field. */
module Volumes {
  import opened Numerics
  import opened Records

  /** The five solids, and any other `subShape` text. */
  datatype Shape = Cylinder | Cone | Box | Pyramid | Sphere | Unknown(name: string)

  /** The solid named by `subShape`; an unset one is a cylinder. */
  function ShapeOf(data: Data): (s: Shape)
    ensures "subShape" !in data ==> s == Cylinder
  {
    match StringOr(data, "subShape", "cylinder")
    case "cylinder" => Cylinder
    case "cone" => Cone
    case "box" => Box
    case "pyramid" => Pyramid
    case "sphere" => Sphere
    case other => Unknown(other)
  }

  /** Volume in mm³, total surface in mm², and the number of explanatory
      steps. */
  datatype Solid = Solid(volume: real, area: real, steps: nat)

  /** What an invalid or unrecognised request yields. */
  const Nothing: Solid := Solid(0.0, 0.0, 0)

  /** A right circular cylinder of diameter `diameter` and height `height`:
      πr²h, and 2πr(r + h) for both ends and the side. */
  function CylinderSolid(diameter: real, height: real): (s: Solid)
    ensures !(0.0 < diameter && 0.0 < height) <==> s == Nothing
  {
    if 0.0 < diameter && 0.0 < height then
      var r := diameter / 2.0;
      Solid(PiTimes(Sq(r)) * height, PiTimes(2.0 * r) * (r + height), 5)
    else Nothing
  }

  /** The cone's slant height, √(r² + h²). */
  function ConeSlant(m: MathLib, radius: real, height: real): real {
    Sqrt(m, Sq(radius) + Sq(height))
  }

  /** A right circular cone: πr²h/3, and πr(r + g) for base and side. */
  function ConeSolid(m: MathLib, diameter: real, height: real): (s: Solid)
    ensures !(0.0 < diameter && 0.0 < height) <==> s == Nothing
  {
    if 0.0 < diameter && 0.0 < height then
      var r := diameter / 2.0;
      Solid(PiTimes(Sq(r)) * height / 3.0, PiTimes(r) * (r + ConeSlant(m, r, height)), 5)
    else Nothing
  }

  /** A rectangular box: l·w·h, and the six faces 2(lw + lh + wh). */
  function BoxSolid(width: real, length: real, height: real): (s: Solid)
    ensures !(0.0 < width && 0.0 < length && 0.0 < height) <==> s == Nothing
  {
    if 0.0 < width && 0.0 < length && 0.0 < height then
      Solid(width * length * height,
        2.0 * (length * width + length * height + width * height), 4)
    else Nothing
  }

  /** Slant height of a face whose base edge lies `other`/2 from the centre
      of the base, √(h² + (other/2)²). */
  function FaceSlant(m: MathLib, height: real, other: real): real {
    Sqrt(m, Sq(height) + Sq(other / 2.0))
  }

  /** A pyramid on a `width` × `length` rectangle with its apex over the
      centre: w·l·h/3, and the base plus four triangular faces. */
  function PyramidSolid(m: MathLib, width: real, length: real, height: real): (s: Solid)
    ensures !(0.0 < width && 0.0 < length && 0.0 < height) <==> s == Nothing
  {
    if 0.0 < width && 0.0 < length && 0.0 < height then
      var lateral := width * FaceSlant(m, height, length) + length * FaceSlant(m, height, width);
      Solid(width * length * height / 3.0, width * length + lateral, 4)
    else Nothing
  }

  function Cube(x: real): real { x * x * x }

  /** A sphere: 4/3·πr³ and 4πr². */
  function SphereSolid(diameter: real): (s: Solid)
    ensures !(0.0 < diameter) <==> s == Nothing
  {
    if 0.0 < diameter then
      var r := diameter / 2.0;
      Solid(4.0 / 3.0 * PiTimes(Cube(r)), 4.0 * PiTimes(Sq(r)), 4)
    else Nothing
  }

  /** The solid the record describes, each reading only its own fields. */
  function Measure(m: MathLib, data: Data): Solid {
    match ShapeOf(data)
    case Cylinder => CylinderSolid(NumberOr(data, "diameter", 0.0), NumberOr(data, "height", 0.0))
    case Cone => ConeSolid(m, NumberOr(data, "diameter", 0.0), NumberOr(data, "height", 0.0))
    case Box =>
      BoxSolid(NumberOr(data, "width", 0.0), NumberOr(data, "length", 0.0), NumberOr(data, "height", 0.0))
    case Pyramid =>
      PyramidSolid(m, NumberOr(data, "width", 0.0), NumberOr(data, "length", 0.0), NumberOr(data, "height", 0.0))
    case Sphere => SphereSolid(NumberOr(data, "diameter", 0.0))
    case Unknown(_) => Nothing
  }

  /** Capacity in litres and in m³, and the surface in m², as the metrics
      show them. */
  function VolumeLiters(s: Solid): real { s.volume / 1000000.0 }

  function VolumeM3(s: Solid): real { VolumeLiters(s) / 1000.0 }

  function AreaM2(s: Solid): real { s.area / 1000000.0 }

  const MetricLabels: seq<string> := ["Volume (Litros)", "Volume (m³)", "Área Superficial"]

  /** Every field of the record carried over, with the volume and the area
      written over any fields of those names. */
  function Payload(data: Data, s: Solid): (p: map<string, Value>)
    ensures forall k :: k in p <==> k in data || k == "volume" || k == "area"
    ensures "volume" in p && p["volume"] == Num(s.volume)
    ensures "area" in p && p["area"] == Num(s.area)
    ensures forall k :: k in data && k != "volume" && k != "area" ==> p[k] == Echo(data[k])
  {
    (map k | k in data :: Echo(data[k]))["volume" := Num(s.volume)]["area" := Num(s.area)]
  }

  /** The three metrics are always present; the steps are those of the
      solid, none when nothing was measured. */
  function Evaluate(data: Data, s: Solid): (r: CalcResult)
    ensures r.metrics == MetricLabels && r.stepCount == s.steps
    ensures r.calculated == Payload(data, s)
  {
    CalcResult(MetricLabels, s.steps, Payload(data, s))
  }

  /** `calculateVolumes`: the solid the record names, measured from its own
      fields (it never returns null); the three metrics are always shown. */
  function Calculate(m: MathLib, data: Data): (r: CalcResult)
    ensures r == Evaluate(data, Measure(m, data))
    ensures r.metrics == MetricLabels
    ensures "subShape" !in data ==> r.stepCount == 5 || r.stepCount == 0
  {
    Evaluate(data, Measure(m, data))
  }

  /** A cone is a third of the cylinder on the same base and height, and a
      pyramid a third of the box with the same sides. */
  lemma ThirdOfThePrism(m: MathLib, diameter: real, width: real, length: real, height: real)
    ensures ConeSolid(m, diameter, height).volume * 3.0 == CylinderSolid(diameter, height).volume
    ensures PyramidSolid(m, width, length, height).volume * 3.0 == BoxSolid(width, length, height).volume
  {
  }

  /** The cylinder's surface is its two ends plus its side. */
  lemma CylinderSurface(diameter: real, height: real)
    requires 0.0 < diameter && 0.0 < height
    ensures var r := diameter / 2.0;
      CylinderSolid(diameter, height).area == 2.0 * Pi * r * r + 2.0 * Pi * r * height
  {
  }

  /** The cone's surface is its base plus its side πrg, and g closes the
      right triangle of radius and height. */
  lemma ConeSurface(m: MathLib, diameter: real, height: real)
    requires SqrtLaw(m)
    requires 0.0 < diameter && 0.0 < height
    ensures var r := diameter / 2.0; var g := ConeSlant(m, r, height);
      ConeSolid(m, diameter, height).area == Pi * r * r + Pi * r * g &&
      0.0 <= g && g * g == r * r + height * height
  {
  }

  /** A sphere's volume is its surface times a third of its radius. */
  lemma SphereVolumeFromSurface(diameter: real)
    requires 0.0 < diameter
    ensures var s, r := SphereSolid(diameter), diameter / 2.0;
      s.volume == s.area * r / 3.0 && s.area == 4.0 * Pi * r * r
  {
    var r := diameter / 2.0;
    assert Cube(r) == Sq(r) * r;
  }

  /** On a square base both face slants agree, and the surface is the base
      plus four equal triangles. */
  lemma SquarePyramid(m: MathLib, side: real, height: real)
    requires 0.0 < side && 0.0 < height
    ensures var sh := FaceSlant(m, height, side);
      PyramidSolid(m, side, side, height).area == side * side + 2.0 * side * sh
  {
  }

  /** Each face slant is the hypotenuse over the height and half the other
      side of the base. */
  lemma FaceSlants(m: MathLib, height: real, other: real)
    requires SqrtLaw(m)
    ensures var sh := FaceSlant(m, height, other);
      0.0 <= sh && sh * sh == height * height + other * other / 4.0
  {
  }

  /** An invalid request or an unknown solid measures nothing: zero volume
      and area, no steps, but still the three metrics. */
  lemma NothingMeasured(m: MathLib, data: Data)
    requires Measure(m, data) == Nothing
    ensures var r := Calculate(m, data);
      r.metrics == MetricLabels && r.stepCount == 0 &&
      r.calculated["volume"] == Num(0.0) && r.calculated["area"] == Num(0.0)
  {
  }

  /** An unknown solid always measures nothing. */
  lemma UnknownShape(m: MathLib, data: Data)
    requires ShapeOf(data).Unknown?
    ensures Measure(m, data) == Nothing
  {
  }

  /** The metrics' units: litres are mm³ over a million, and m³ litres over
      a thousand, so a cubic metre is 10⁹ mm³. */
  lemma Units(s: Solid)
    ensures VolumeLiters(s) * 1000000.0 == s.volume
    ensures VolumeM3(s) * 1000000000.0 == s.volume
    ensures AreaM2(s) * 1000000.0 == s.area
  {
  }
}
